=== FILE: README.md ===
# svc_id ledger

A Dafny model of a small service that hands out integer service ids
(`svc_id`) to the areas of a game. It models the `svc_ids` table
(`model.py`), the allocator `alloc_new_ids` and the three requests
`svc_id_get`, `svc_id_recycle` and `svc_id_resize` (`main.py`).

- The table is an immutable `seq<Record>`. A row's position stands for its
  auto-increment primary key. `deleted` stands for `delete_time IS NOT NULL`.
- Every request is one atomic step. Get and resize return a `Reply`: the
  ids, the error code, and the table after commit or rollback. Recycle
  returns only the new table, since its error code is always 0.
- A failed allocation, or a write the `(game_id, svc_id)` unique index
  rejects at commit, leaves the table as it was.
- The database enforces the `(game_id, svc_id)` unique index, so no stored
  table violates it. Lemmas that rely on it take `Unique` (or the stronger
  `DistinctSvc`) as a requirement.
- The id bound `max_svc_id` is a parameter. `DefaultMaxSvcId` (65535) is
  its configured default.

Files:

- `sorting.dfy`: the insertion sort that stands for `ORDER BY svc_id` and
  `list.sort()`, with its permutation and ordering lemmas.
- `ledger.dfy`: rows, the two query filters, the high-water mark, and
  soft-deletion and reactivation of rows.
- `alloc.dfy`: `alloc_new_ids`.
- `service.dfy`: get-or-allocate, recycle and resize.
- `examples.dfy`: worked scenarios on small tables.

Several behaviours of the code are worth noting:

- The high-water mark is taken over the rows of every game, not only the
  requesting game (main.py:60).
- The reuse query takes soft-deleted rows of any game and rewrites the
  row's game to the requester's (main.py:69-79). A game can therefore take
  over an id another game released (`Scenarios.ReuseCrossesGames`).
- Because the mark is global, the table keeps every svc_id distinct across
  games (`DistinctSvc`). That is stronger than the unique index, and the
  model proves it is preserved. When two games do share an svc_id, reusing
  one game's row for the other collides with the unique index at commit
  and the request rolls back (`Scenarios.CrossGameReuseRejected`).
- With bound 10, high-water mark 8, released ids 3 and 5 and a request for
  3 ids, the code needs only one reused id. It answers `[3, 9, 10]`: only
  one of the two released ids is reused (`Scenarios.ReuseLowestThenMint`).
- Get returns an area's existing ids in whatever order the store yields,
  since its query has no ORDER BY. The model lists them in table order and
  promises only which ids are answered. Only resize and allocations answer
  ascending lists.
- Resize answers error code 1 for an area with no active ids whatever the
  target, including shrink and no-op targets.
- There is no retry loop: each request catches every exception once and
  rolls back.

## Model

| member | source | states |
|---|---|---|
| SvcLedger.MaxSvcFacts | main.py:60-61 | The high-water mark is at least every row's svc_id, active or deleted, of every game. It is 0 on an empty table and is otherwise carried by some row. |
| SvcLedger.SlotsFacts | main.py:120 | A filtered query returns exactly the rows that match the filter, each once, in table order, with its own svc_id. |
| SvcLedger.OwnedSlots | main.py:120-122 | The svc_ids the area query returns are exactly the ids the area holds actively, and there are as many as the area has active rows. |
| SvcLedger.ReleaseKeepsKeys | main.py:152-154 | Soft-deleting rows changes no row's game or svc_id. It therefore keeps the unique index, the cross-game distinctness and the range bound. |
| Sorting.SortSorted | main.py:92 | The sort leaves its input in ascending key order. |
| Sorting.SortPerm | main.py:92 | The sort is a permutation of its input. |
| Sorting.SortedPermEqual | main.py:92 | Two ascending integer lists with the same elements are equal, so a sorted id list is determined by its elements. |
| Sorting.SortUnion | main.py:192-193 | Sorting two disjoint id lists joined together gives a strictly ascending list of exactly their elements. |
| Allocation.AllocateFails | main.py:64-72 | Allocation raises exactly when reuse is needed (`count - (max - mark) > 0`) and fewer soft-deleted rows exist than needed. |
| Allocation.AllocateFresh | main.py:64-88 | With no reuse needed, the ids are exactly mark+1 .. mark+count. The old table is an untouched prefix, and one new active row of the area is appended per id. |
| Allocation.AllocateReuse | main.py:67-83 | In the reuse path the first `need` ids are the picked pool rows' ids and the rest are mark+1 upward. Picked rows are reactivated under the requester's game and area; all other rows are unchanged. Under mark <= bound, the last minted id is exactly the bound. |
| Allocation.PoolFacts | main.py:69-70 | The reuse pool is every soft-deleted row of every game, each once, ascending by svc_id. |
| Allocation.PoolCount | main.py:69-71 | The pool has as many rows as the table has soft-deleted rows. |
| Allocation.PickOrdered | main.py:69-70 | The picked rows are soft-deleted rows at distinct positions, in ascending svc_id order. |
| Allocation.PickLowest | main.py:69-70 | No soft-deleted row left behind has a lower svc_id than a picked one. |
| Allocation.AllocateSorted | main.py:86-93 | The ids handed out are ascending, and every appended row's svc_id exceeds every existing row's. |
| Allocation.AllocateMergesSorted | main.py:90-92 | The ids equal the sort of the minted ids followed by the reused ids. |
| Allocation.AllocateCount | main.py:64-83 | With count >= 0 and mark <= bound, exactly `count` ids are handed out. |
| Allocation.AllocateFrame | main.py:75-88 | No row is removed, and an active row is never touched. A soft-deleted row either stays as it was or becomes an active row of the requester with the same svc_id. |
| Allocation.AllocateOwned | main.py:75-88 | Every id handed out is held by the requesting area afterwards. |
| Allocation.AllocateHeld | main.py:75-88 | After allocation the area holds exactly what it held before plus the ids handed out. |
| Allocation.HolderIsOldOrGranted | main.py:75-88 | Every active row of the area afterwards is either an unchanged old row or carries a granted id. |
| Allocation.AllocateKeys | main.py:75-88 | Old rows keep their svc_ids, and appended rows carry mark+1 upward in order. |
| Allocation.AllocateDistinct | main.py:60-88 | If svc_ids were distinct across games before, they still are, so the unique index holds. The ids handed out have no duplicates. |
| Allocation.AllocateIdsDistinct | main.py:64-93 | Under distinct svc_ids, no id is handed out twice. |
| Allocation.AllocateInRange | main.py:64-83 | If all svc_ids lay in [1, bound] before, they still do, and so does every id handed out. |
| Allocation.AllocateAvoidsActive | main.py:67-83 | Under distinct svc_ids, no id handed out is the id of a row that was active before. |
| Allocation.AllocateGranted | main.py:55-93 | On a distinct, in-range table with count >= 0 and enough released rows, allocation succeeds. It gives exactly `count` distinct in-range ids, and the new table is distinct, in range and passes the unique index. |
| SvcLedger.DistinctSvcUnique | model.py:20 | Cross-game distinct svc_ids imply the `(game_id, svc_id)` unique index. |
| Service.AreaRowsFacts | main.py:174 | The resize query returns one entry per active row of the area, ascending by svc_id, and its ids are exactly those the area holds. |
| Service.AreaRowsStrict | main.py:174 | Under the unique index, the resize query's ids are strictly ascending. |
| Service.GetProvisioned | main.py:120-122 | An area with active rows gets exactly its held ids, one per row, with error code 0 and no write, whatever `count` is. |
| Service.GetEmpty | main.py:124-125 | An area with no active rows and count 0 gets `[]`, error code 0, and no write. |
| Service.GetNegative | main.py:124-130 | With the mark within the bound and the unique index holding, an area with no active rows asking for a negative count mints an empty range: `[]`, error code 0, and no write. |
| Service.GetExhausted | main.py:127-134 | An allocation that runs short of released rows answers `[]` with error code 1 and rolls the table back. |
| Service.GetAllocates | main.py:126-130 | An area with no active rows asking for count > 0, when enough released rows exist, gets an allocation. It answers `count` strictly ascending ids in [1, bound] with error code 0. Afterwards the area holds exactly those ids and the table stays distinct and in range. |
| Service.GetPreserves | main.py:117-134 | Get never removes a row or changes an svc_id. Every old row is left as it was, or was soft-deleted and is now an active row of the requesting area, so active rows and other areas' rows are untouched. It keeps the unique index, cross-game distinctness and the range bound. |
| Service.RecycleEffect | main.py:147-157 | Recycle soft-deletes exactly the area's active rows and leaves every other row unchanged. An area with no active rows is a no-op. |
| Service.RecycleReleasesArea | main.py:147-157 | After recycle the area holds no id, and every other area holds what it held. |
| Service.RecycleIdempotent | main.py:147-157 | Recycling twice is the same as recycling once. |
| Service.RecyclePreserves | main.py:152-157 | Recycle keeps every row's game and svc_id, the unique index, cross-game distinctness and the range bound. |
| Service.ResizeUnprovisioned | main.py:174-176 | Resizing an area with no active rows answers `[]` with error code 1 and no write. |
| Service.ResizeUnchanged | main.py:178-180 | A negative target, or the current count, returns the area's ids ascending (strictly, under the index), with error code 0 and no write. |
| Service.ResizeShrink | main.py:182-188 | Shrinking keeps the `target` lowest ids, ascending. It soft-deletes every other active row of the area, each above every kept id, and touches no other row. |
| Service.ResizeShrinkHolds | main.py:182-188 | After a shrink the area holds exactly the ids answered. |
| Service.ResizeGrowExhausted | main.py:189-199 | Growing when allocation runs short answers `[]` with error code 2 and rolls the table back. |
| Service.ResizeGrow | main.py:189-196 | On a distinct, in-range table with enough released rows, growing answers `target` strictly ascending ids in [1, bound], including every id the area held before. |
| Service.ResizeGrowMerges | main.py:191-193 | The grown list is exactly the old ids together with the newly allocated ones. |
| Service.ResizeGrowHolds | main.py:189-195 | After growing, the area holds exactly the ids answered. |
| Service.ResizeGrowLedger | main.py:189-199 | The table after a grow is either the old table (rollback) or the allocation's table. |
| Service.ResizePreserves | main.py:171-199 | Resize never removes a row or changes an svc_id, and keeps the unique index, cross-game distinctness and the range bound. |
| Scenarios.ReuseLowestThenMint | main.py:64-93 | Bound 10, mark 8, released {3, 5}, count 3: reuses 3, mints 9 and 10, answers `[3, 9, 10]`. |
| Scenarios.FullTableRefuses | main.py:64-72 | A full table with nothing released refuses one more id with error code 1 and no write. |
| Scenarios.ShrinkDropsHighest | main.py:182-188 | {12, 4, 9, 7} resized to 2 answers `[4, 7]` and soft-deletes 9 and 12. |
| Scenarios.FirstRequest | main.py:60-66 | On an empty table with the default bound, the first request for 3 ids gets 1, 2, 3. |
| Scenarios.ReuseCrossesGames | main.py:69-79 | A released row of game 1 is taken over by game 2 and rewritten to game 2. |
| Scenarios.CrossGameReuseRejected | main.py:128-134 | When two games share an svc_id, reusing one game's row for the other breaks the unique index at commit, and get rolls back with error code 1. |
| Scenarios.NegativeCountBelowMarkReuses | main.py:64-83 | With the bound below the mark, a request for a negative count still takes over the lowest released row and answers its id. |
| Scenarios.BoundBelowMarkOvergrants | main.py:64-83 | With the bound below the mark, a request for one id takes over two released rows and answers two ids. |

## Left out

- HTTP routing, request classes, the startup hook, sessions and the
  SERIALIZABLE isolation setting (main.py:19-42): plumbing around the
  ledger logic.
- Row locks (`with_for_update`): each request is modelled as one atomic
  step, so concurrency between requests is not modelled.
- Timestamps (`create_time`, `update_time`, `delete_time`): only whether
  `delete_time` is set matters, and it is a boolean here.
- Logging and configuration loading (logger_config.py, logger_api.py,
  config.py): I/O. The bound is a parameter; its default is
  `DefaultMaxSvcId`.
- Retry of failed transactions: the code has no retry loop, so there is
  nothing to model.
- Database faults other than the two the code's logic can cause (too few
  released rows, and the unique index at commit). Connection loss and
  similar faults would also roll back with error code 1 or 2; they are
  not modelled.
- Order among rows with equal svc_ids: the database leaves it open. The
  model's sort keeps input order among equal keys, but no lemma relies on
  that. Under cross-game distinct svc_ids, which every request preserves,
  no such ties exist.
- Allocation.AllocateCount: stated only under mark <= bound, because the
  code does not give `count` ids otherwise.
  `Scenarios.BoundBelowMarkOvergrants` shows the over-grant that arises
  when the bound is configured below ids already in the table.
- Service.GetNegative: stated only with the mark within the bound. When
  the bound is configured below the mark, a negative count can still need
  reuse (`count - (max - mark) > 0`), and get then reactivates released
  rows for the area and answers their ids
  (`Scenarios.NegativeCountBelowMarkReuses`).
- Service.ResizeShrink: the kept ids are modelled as the first `target`
  sorted ids. The code instead removes each dropped row's id from the list
  one by one. The two agree because the unique index makes an area's ids
  distinct, and the lemma requires that index.
- Get's answer for an area that already has ids comes in whatever order
  the store yields, as the query has no ORDER BY. The model lists them in
  table order and promises only which ids are answered
  (Service.GetProvisioned).
- Column widths: `game_id`, `area_id` and `svc_id` are `Integer` columns
  (model.py:10-12), 32-bit signed in the store, while the requests accept
  any integer. A value outside that range would fail at flush and roll back
  with error code 1 (get) or 2 (resize). The model uses unbounded integers
  and does not model that failure; with the default bound of 65535 no
  minted svc_id comes near the limit.
- The `err_msg` text of every reply: it only describes the error code and
  carries no logic, so replies keep only the ids and the error code.

=== FILE: alloc.dfy ===
/**
 Allocation of new service ids (`alloc_new_ids`).

 Fresh ids are minted above the high-water mark while the bound leaves room;
 once it does not, the lowest-numbered soft-deleted rows are taken over by
 the requesting area, and if there are too few of them the request fails.
 Both the high-water mark and the pool of soft-deleted rows are taken over
 the whole table, not over the requesting game: a game can take over a row
 another game released, and the row's game is rewritten to the requester's.
 */
module Allocation {

  import opened SvcLedger
  import opened Sorting

  /** The ids handed out, ascending, and the table as the request leaves it. */
  datatype Grant = Grant(ids: seq<int>, ledger: Ledger)

  /** `Exhausted` is the exception raised when the reusable rows run short. */
  datatype Outcome = Granted(grant: Grant) | Exhausted

  /** The soft-deleted rows of every game, lowest svc_id first. */
  function ReusePool(L: Ledger): (r: seq<Slot>)
  {
    Sort(Slots(L, SoftDeleted), SlotKey)
  }

  /** How many ids the request must take from soft-deleted rows:
      whatever the room left under the bound cannot hold. */
  function NeedReuse(L: Ledger, maxId: int, count: int): (r: int)
  {
    count - (maxId - MaxSvc(L))
  }

  /** The number of soft-deleted rows in the table. */
  ghost function DeletedCount(L: Ledger): (r: nat)
  {
    |set i: nat | 0 <= i < |L| && L[i].deleted|
  }

  /** Allocates `count` ids for the area: the ids, ascending, and the new table. */
  function Allocate(L: Ledger, maxId: int, gameId: int, areaId: int, count: int): (r: Outcome)
  {
    var m := MaxSvc(L);
    var need := count - (maxId - m);
    if need <= 0 then
      var minted := Mint(m, count);
      Granted(Grant(minted, L + NewRecords(gameId, areaId, minted)))
    else
      var pool := ReusePool(L);
      if |pool| < need then Exhausted
      else
        var pick := pool[..need];
        var minted := Mint(m, count - need);
        Granted(Grant(Svcs(pick) + minted,
                      Reactivate(L, Positions(pick), gameId, areaId) + NewRecords(gameId, areaId, minted)))
  }

  /** The request fails exactly when reuse is needed and the table holds
      fewer soft-deleted rows than needed. */
  lemma AllocateFails(L: Ledger, maxId: int, gameId: int, areaId: int, count: int)
    ensures Allocate(L, maxId, gameId, areaId, count).Exhausted? <==>
      NeedReuse(L, maxId, count) > 0 && DeletedCount(L) < NeedReuse(L, maxId, count)
  {
    SlotsCount(L, SoftDeleted, 0);
    assert PositionsFrom(L, SoftDeleted, 0) == set i: nat | 0 <= i < |L| && L[i].deleted;
  }

  /** What the reuse pool is: every soft-deleted row once, ordered by svc_id. */
  lemma PoolFacts(L: Ledger)
    ensures |ReusePool(L)| == |Slots(L, SoftDeleted)|
    ensures SortedBy(ReusePool(L), SlotKey)
    ensures Distinct(ReusePool(L))
    ensures forall k :: 0 <= k < |ReusePool(L)| ==>
      SlotOf(L, ReusePool(L)[k]) && L[ReusePool(L)[k].pos].deleted
    ensures forall i :: 0 <= i < |L| && L[i].deleted ==> Slot(i, L[i].svcId) in ReusePool(L)
  {
    var slots := Slots(L, SoftDeleted);
    var pool := ReusePool(L);
    SlotsFacts(L, SoftDeleted);
    SortPerm(slots, SlotKey);
    SortSorted(slots, SlotKey);
    SlotsDistinct(L, SoftDeleted);
    SortDistinct(slots, SlotKey);
    forall k | 0 <= k < |pool| ensures SlotOf(L, pool[k]) && L[pool[k].pos].deleted {
      assert pool[k] in multiset(slots);
    }
    forall i | 0 <= i < |L| && L[i].deleted ensures Slot(i, L[i].svcId) in pool {
      assert Slot(i, L[i].svcId) in multiset(slots);
    }
  }

  /** While the bound leaves room, the request gets the next `count` ids above
      the high-water mark, appended as new active rows of the area; no
      existing row changes. */
  lemma {:induction false} AllocateFresh(L: Ledger, maxId: int, gameId: int, areaId: int, count: int)
    requires NeedReuse(L, maxId, count) <= 0
    ensures Allocate(L, maxId, gameId, areaId, count).Granted?
    ensures var g := Allocate(L, maxId, gameId, areaId, count).grant;
      && |g.ids| == (if count > 0 then count else 0)
      && (forall k :: 0 <= k < |g.ids| ==> g.ids[k] == MaxSvc(L) + 1 + k)
      && |g.ledger| == |L| + |g.ids|
      && g.ledger[..|L|] == L
      && (forall i :: |L| <= i < |g.ledger| ==> g.ledger[i] == Record(gameId, areaId, MaxSvc(L) + 1 + (i - |L|), false))
  {
    var g := Allocate(L, maxId, gameId, areaId, count).grant;
    assert g.ledger == L + NewRecords(gameId, areaId, Mint(MaxSvc(L), count));
  }

  /** A request that needs `need` reused rows, with at least that many in
      the pool, takes the pool's first `need` rows and mints the rest. */
  lemma AllocateByReuse(L: Ledger, maxId: int, gameId: int, areaId: int, count: int, need: int)
    requires need == NeedReuse(L, maxId, count) && 0 < need <= |ReusePool(L)|
    ensures var pick := ReusePool(L)[..need];
      var minted := Mint(MaxSvc(L), count - need);
      Allocate(L, maxId, gameId, areaId, count) ==
        Granted(Grant(Svcs(pick) + minted, Reactivate(L, Positions(pick), gameId, areaId) + NewRecords(gameId, areaId, minted)))
  {
  }

  /** The reuse pool holds as many rows as the table has soft-deleted rows. */
  lemma PoolCount(L: Ledger)
    ensures |ReusePool(L)| == DeletedCount(L)
  {
    PoolFacts(L);
    SlotsCount(L, SoftDeleted, 0);
    assert PositionsFrom(L, SoftDeleted, 0) == set i: nat | 0 <= i < |L| && L[i].deleted;
  }

  /** The first `need` rows of the pool are distinct soft-deleted rows in
      ascending svc_id order. */
  lemma PickOrdered(L: Ledger, need: int)
    requires 0 <= need <= |ReusePool(L)|
    ensures var pick := ReusePool(L)[..need];
      && (forall k :: 0 <= k < need ==> SlotOf(L, pick[k]) && L[pick[k].pos].deleted)
      && SortedBy(pick, SlotKey)
      && (forall k, l :: 0 <= k < l < need ==> pick[k].pos != pick[l].pos)
  {
    var pick := ReusePool(L)[..need];
    PoolFacts(L);
    assert Distinct(pick);
    DistinctSlotsDistinctPositions(L, pick);
  }

  /** No soft-deleted row left out of the first `need` rows of the pool has a
      lower svc_id than a row taken. */
  lemma PickLowest(L: Ledger, need: int)
    requires 0 <= need <= |ReusePool(L)|
    ensures var pick := ReusePool(L)[..need];
      forall k, i :: 0 <= k < need && 0 <= i < |L| && L[i].deleted && i !in Positions(pick) ==>
        pick[k].svcId <= L[i].svcId
  {
    var pool := ReusePool(L);
    PoolFacts(L);
    var pick := pool[..need];
    forall k, i | 0 <= k < need && 0 <= i < |L| && L[i].deleted && i !in Positions(pick)
      ensures pick[k].svcId <= L[i].svcId
    {
      var p :| 0 <= p < |pool| && pool[p] == Slot(i, L[i].svcId);
    }
  }

  /** Once the bound is reached, the request takes the `need` first rows of
      the reuse pool (see PickOrdered and PickLowest), rewrites them as active rows of the
      requesting game and area, and mints the remaining `count - need` ids
      above the high-water mark; given the mark is within the bound, the
      minted ids end exactly at the bound. */
  lemma {:induction false} AllocateReuse(L: Ledger, maxId: int, gameId: int, areaId: int, count: int)
    requires NeedReuse(L, maxId, count) > 0
    requires DeletedCount(L) >= NeedReuse(L, maxId, count)
    ensures Allocate(L, maxId, gameId, areaId, count).Granted?
    ensures var need := NeedReuse(L, maxId, count);
      var pick := ReusePool(L)[..need];
      var g := Allocate(L, maxId, gameId, areaId, count).grant;
      var n := if count - need > 0 then count - need else 0;
      && |pick| == need
      && |g.ids| == need + n
      && g.ids[..need] == Svcs(pick)
      && (forall k :: need <= k < |g.ids| ==> g.ids[k] == MaxSvc(L) + 1 + (k - need))
      && |g.ledger| == |L| + n
      && (forall i :: 0 <= i < |L| ==>
            g.ledger[i] == if i in Positions(pick) then Record(gameId, areaId, L[i].svcId, false) else L[i])
      && (forall i :: |L| <= i < |g.ledger| ==> g.ledger[i] == Record(gameId, areaId, MaxSvc(L) + 1 + (i - |L|), false))
      && (MaxSvc(L) <= maxId && n > 0 ==> g.ids[|g.ids| - 1] == maxId)
  {
    PoolCount(L);
  }

  /** The ids handed out are ascending, as `new_ids.sort()` leaves them, and
      every new row's svc_id lies above every existing row's. */
  lemma {:induction false} AllocateSorted(L: Ledger, maxId: int, gameId: int, areaId: int, count: int)
    requires Allocate(L, maxId, gameId, areaId, count).Granted?
    ensures var g := Allocate(L, maxId, gameId, areaId, count).grant;
      && SortedBy(g.ids, Id)
      && |g.ledger| >= |L|
      && (forall i, j :: |L| <= i < |g.ledger| && 0 <= j < |L| ==> L[j].svcId < g.ledger[i].svcId)
  {
    var need := NeedReuse(L, maxId, count);
    var g := Allocate(L, maxId, gameId, areaId, count).grant;
    MaxSvcFacts(L);
    if need > 0 {
      AllocateFails(L, maxId, gameId, areaId, count);
      AllocateReuse(L, maxId, gameId, areaId, count);
      PickOrdered(L, need);
      var pick := ReusePool(L)[..need];
      forall k, l | 0 <= k < l < |g.ids| ensures g.ids[k] <= g.ids[l] {
        if l < need {
          assert g.ids[k] == pick[k].svcId && g.ids[l] == pick[l].svcId;
        } else if k < need {
          assert g.ids[k] == L[pick[k].pos].svcId;
        }
      }
    }
  }

  /** The ids handed out are the freshly minted ids followed by the reused
      ones, sorted ascending. */
  lemma AllocateMergesSorted(L: Ledger, maxId: int, gameId: int, areaId: int, count: int)
    requires Allocate(L, maxId, gameId, areaId, count).Granted?
    ensures var need := NeedReuse(L, maxId, count);
      var reused := if need <= 0 then [] else Svcs(ReusePool(L)[..need]);
      var minted := Mint(MaxSvc(L), if need <= 0 then count else count - need);
      Allocate(L, maxId, gameId, areaId, count).grant.ids == Sort(minted + reused, Id)
  {
    var need := NeedReuse(L, maxId, count);
    var g := Allocate(L, maxId, gameId, areaId, count).grant;
    AllocateSorted(L, maxId, gameId, areaId, count);
    if need <= 0 {
      var minted := Mint(MaxSvc(L), count);
      assert g.ids == minted;
      SortedIsSort([], minted);
      assert minted + [] == minted;
    } else {
      AllocateFails(L, maxId, gameId, areaId, count);
      PoolCount(L);
      AllocateByReuse(L, maxId, gameId, areaId, count, need);
      SortedIsSort(Svcs(ReusePool(L)[..need]), Mint(MaxSvc(L), count - need));
    }
  }

  /** When `a + b` is already ascending, sorting `b + a` gives it back. */
  lemma SortedIsSort(a: seq<int>, b: seq<int>)
    requires SortedBy(a + b, Id)
    ensures Sort(b + a, Id) == a + b
  {
    SortSorted(b + a, Id);
    SortPerm(b + a, Id);
    assert multiset(b + a) == multiset(a + b);
    SortedPermEqual(a + b, Sort(b + a, Id));
  }

  /** With a non-negative count and the high-water mark within the bound,
      exactly `count` ids are handed out. */
  lemma AllocateCount(L: Ledger, maxId: int, gameId: int, areaId: int, count: int)
    requires count >= 0 && MaxSvc(L) <= maxId
    requires Allocate(L, maxId, gameId, areaId, count).Granted?
    ensures |Allocate(L, maxId, gameId, areaId, count).grant.ids| == count
  {
    if NeedReuse(L, maxId, count) > 0 {
      AllocateFails(L, maxId, gameId, areaId, count);
      AllocateReuse(L, maxId, gameId, areaId, count);
    } else {
      AllocateFresh(L, maxId, gameId, areaId, count);
    }
  }

  /** Rows are never removed: every existing row keeps its place and svc_id,
      an active row is left exactly as it was, and a soft-deleted row either
      stays as it was or becomes an active row of the requesting area. */
  lemma AllocateFrame(L: Ledger, maxId: int, gameId: int, areaId: int, count: int)
    requires Allocate(L, maxId, gameId, areaId, count).Granted?
    ensures var g := Allocate(L, maxId, gameId, areaId, count).grant;
      && |g.ledger| >= |L|
      && forall i :: 0 <= i < |L| ==>
           || g.ledger[i] == L[i]
           || (L[i].deleted && g.ledger[i] == Record(gameId, areaId, L[i].svcId, false))
  {
    var need := NeedReuse(L, maxId, count);
    if need > 0 {
      AllocateFails(L, maxId, gameId, areaId, count);
      AllocateReuse(L, maxId, gameId, areaId, count);
      PickOrdered(L, need);
      var pick := ReusePool(L)[..need];
      forall i | 0 <= i < |L| && i in Positions(pick) ensures L[i].deleted {
        var k :| 0 <= k < need && pick[k].pos == i;
      }
    }
  }

  /** Every id handed out is an active row of the requesting area afterwards. */
  lemma AllocateOwned(L: Ledger, maxId: int, gameId: int, areaId: int, count: int)
    requires Allocate(L, maxId, gameId, areaId, count).Granted?
    ensures var g := Allocate(L, maxId, gameId, areaId, count).grant;
      forall k :: 0 <= k < |g.ids| ==> HeldBy(g.ledger, gameId, areaId, g.ids[k])
  {
    var g := Allocate(L, maxId, gameId, areaId, count).grant;
    forall k | 0 <= k < |g.ids| ensures HeldBy(g.ledger, gameId, areaId, g.ids[k]) {
      var i := OwnerOf(L, maxId, gameId, areaId, count, k);
      assert 0 <= i < |g.ledger| && Owns(g.ledger[i], gameId, areaId) && g.ledger[i].svcId == g.ids[k];
    }
  }

  /** The row that holds the `k`-th id handed out. */
  lemma OwnerOf(L: Ledger, maxId: int, gameId: int, areaId: int, count: int, k: int) returns (i: nat)
    requires Allocate(L, maxId, gameId, areaId, count).Granted?
    requires 0 <= k < |Allocate(L, maxId, gameId, areaId, count).grant.ids|
    ensures var g := Allocate(L, maxId, gameId, areaId, count).grant;
      i < |g.ledger| && Owns(g.ledger[i], gameId, areaId) && g.ledger[i].svcId == g.ids[k]
  {
    var need := NeedReuse(L, maxId, count);
    var g := Allocate(L, maxId, gameId, areaId, count).grant;
    if need > 0 {
      AllocateFails(L, maxId, gameId, areaId, count);
      AllocateReuse(L, maxId, gameId, areaId, count);
      if k < need {
        PickOrdered(L, need);
        var pick := ReusePool(L)[..need];
        i := pick[k].pos;
        assert pick[k] in pick;
        assert i in Positions(pick);
        assert g.ids[k] == Svcs(pick)[k];
      } else {
        i := |L| + k - need;
      }
    } else {
      AllocateFresh(L, maxId, gameId, areaId, count);
      i := |L| + k;
    }
  }

  /** After allocation the area holds exactly what it held before plus the
      ids handed out. */
  lemma AllocateHeld(L: Ledger, maxId: int, gameId: int, areaId: int, count: int)
    requires Allocate(L, maxId, gameId, areaId, count).Granted?
    ensures var g := Allocate(L, maxId, gameId, areaId, count).grant;
      forall v :: HeldBy(g.ledger, gameId, areaId, v) <==> HeldBy(L, gameId, areaId, v) || v in g.ids
  {
    var g := Allocate(L, maxId, gameId, areaId, count).grant;
    AllocateFrame(L, maxId, gameId, areaId, count);
    AllocateOwned(L, maxId, gameId, areaId, count);
    forall v | HeldBy(L, gameId, areaId, v) ensures HeldBy(g.ledger, gameId, areaId, v) {
      var i :| 0 <= i < |L| && Owns(L[i], gameId, areaId) && L[i].svcId == v;
      assert g.ledger[i] == L[i];
    }
    forall v | HeldBy(g.ledger, gameId, areaId, v) ensures HeldBy(L, gameId, areaId, v) || v in g.ids {
      var i :| 0 <= i < |g.ledger| && Owns(g.ledger[i], gameId, areaId) && g.ledger[i].svcId == v;
      HolderIsOldOrGranted(L, maxId, gameId, areaId, count, i);
    }
  }

  /** A row that holds an id of the area after allocation held it before,
      or holds one of the ids handed out. */
  lemma HolderIsOldOrGranted(L: Ledger, maxId: int, gameId: int, areaId: int, count: int, i: int)
    requires Allocate(L, maxId, gameId, areaId, count).Granted?
    requires var g := Allocate(L, maxId, gameId, areaId, count).grant;
      0 <= i < |g.ledger| && Owns(g.ledger[i], gameId, areaId)
    ensures var g := Allocate(L, maxId, gameId, areaId, count).grant;
      (i < |L| && g.ledger[i] == L[i]) || g.ledger[i].svcId in g.ids
  {
    if NeedReuse(L, maxId, count) > 0 {
      AllocateFails(L, maxId, gameId, areaId, count);
      HolderAfterReuse(L, maxId, gameId, areaId, count, i);
    } else {
      var g := Allocate(L, maxId, gameId, areaId, count).grant;
      AllocateFresh(L, maxId, gameId, areaId, count);
      if i >= |L| {
        assert g.ids[i - |L|] == g.ledger[i].svcId;
      }
    }
  }

  /** HolderIsOldOrGranted for a request that reuses rows. */
  lemma HolderAfterReuse(L: Ledger, maxId: int, gameId: int, areaId: int, count: int, i: int)
    requires NeedReuse(L, maxId, count) > 0
    requires Allocate(L, maxId, gameId, areaId, count).Granted?
    requires 0 <= i < |Allocate(L, maxId, gameId, areaId, count).grant.ledger|
    ensures var g := Allocate(L, maxId, gameId, areaId, count).grant;
      (i < |L| && g.ledger[i] == L[i]) || g.ledger[i].svcId in g.ids
  {
    var need := NeedReuse(L, maxId, count);
    var g := Allocate(L, maxId, gameId, areaId, count).grant;
    var pick := ReusePool(L)[..need];
    PoolCount(L);
    assert g.ids == Svcs(pick) + Mint(MaxSvc(L), count - need);
    assert g.ledger == Reactivate(L, Positions(pick), gameId, areaId) + NewRecords(gameId, areaId, Mint(MaxSvc(L), count - need));
    if i < |L| {
      if i in Positions(pick) {
        var k :| 0 <= k < need && pick[k].pos == i;
        PickOrdered(L, need);
        assert g.ids[k] == Svcs(pick)[k];
      }
    } else {
      assert g.ids[i - |L| + need] == g.ledger[i].svcId;
    }
  }

  /** When no two rows share a svc_id, the same holds after allocation, and
      the ids handed out are pairwise distinct; the table's unique index on
      (game_id, svc_id) therefore never rejects the write. */
  lemma AllocateDistinct(L: Ledger, maxId: int, gameId: int, areaId: int, count: int)
    requires DistinctSvc(L)
    requires Allocate(L, maxId, gameId, areaId, count).Granted?
    ensures var g := Allocate(L, maxId, gameId, areaId, count).grant;
      DistinctSvc(g.ledger) && Unique(g.ledger) && Distinct(g.ids)
  {
    var g := Allocate(L, maxId, gameId, areaId, count).grant;
    AllocateKeys(L, maxId, gameId, areaId, count);
    MaxSvcFacts(L);
    ExtendDistinct(L, g.ledger, MaxSvc(L));
    DistinctSvcUnique(g.ledger);
    AllocateIdsDistinct(L, maxId, gameId, areaId, count);
  }

  /** Allocation keeps every existing row's svc_id and numbers the appended
      rows upwards from just above the high-water mark. */
  lemma AllocateKeys(L: Ledger, maxId: int, gameId: int, areaId: int, count: int)
    requires Allocate(L, maxId, gameId, areaId, count).Granted?
    ensures var g := Allocate(L, maxId, gameId, areaId, count).grant;
      && |g.ledger| >= |L|
      && (forall i :: 0 <= i < |L| ==> g.ledger[i].svcId == L[i].svcId)
      && (forall i :: |L| <= i < |g.ledger| ==> g.ledger[i].svcId == MaxSvc(L) + 1 + (i - |L|))
  {
    var need := NeedReuse(L, maxId, count);
    AllocateFrame(L, maxId, gameId, areaId, count);
    if need > 0 {
      AllocateFails(L, maxId, gameId, areaId, count);
      AllocateReuse(L, maxId, gameId, areaId, count);
    } else {
      AllocateFresh(L, maxId, gameId, areaId, count);
    }
  }

  /** A table whose old rows keep their svc_ids and whose appended rows count
      upwards from above every old svc_id has distinct svc_ids if the old one did. */
  lemma ExtendDistinct(L: Ledger, L': Ledger, m: int)
    requires DistinctSvc(L)
    requires |L'| >= |L|
    requires forall i :: 0 <= i < |L| ==> L'[i].svcId == L[i].svcId && L[i].svcId <= m
    requires forall i :: |L| <= i < |L'| ==> L'[i].svcId == m + 1 + (i - |L|)
    ensures DistinctSvc(L')
  {
    forall i, j | 0 <= i < j < |L'| ensures L'[i].svcId != L'[j].svcId {
      if j < |L| {
        assert L[i].svcId != L[j].svcId;
      }
    }
  }

  /** The ids one request hands out are pairwise distinct. */
  lemma AllocateIdsDistinct(L: Ledger, maxId: int, gameId: int, areaId: int, count: int)
    requires DistinctSvc(L)
    requires Allocate(L, maxId, gameId, areaId, count).Granted?
    ensures Distinct(Allocate(L, maxId, gameId, areaId, count).grant.ids)
  {
    var need := NeedReuse(L, maxId, count);
    var g := Allocate(L, maxId, gameId, areaId, count).grant;
    MaxSvcFacts(L);
    if need > 0 {
      AllocateFails(L, maxId, gameId, areaId, count);
      AllocateReuse(L, maxId, gameId, areaId, count);
      PickOrdered(L, need);
      var pick := ReusePool(L)[..need];
      forall k, l | 0 <= k < l < |g.ids| ensures g.ids[k] != g.ids[l] {
        if l < need {
          assert g.ids[k] == L[pick[k].pos].svcId && g.ids[l] == L[pick[l].pos].svcId;
        } else if k < need {
          assert g.ids[k] == L[pick[k].pos].svcId;
        }
      }
    } else {
      AllocateFresh(L, maxId, gameId, areaId, count);
    }
  }

  /** On a table with distinct in-range svc_ids, a request for `count >= 0`
      ids that the reusable rows can serve is granted exactly `count`
      distinct ids in [1, maxId], and the new table keeps both properties. */
  lemma AllocateGranted(L: Ledger, maxId: int, gameId: int, areaId: int, count: int) returns (g: Grant)
    requires DistinctSvc(L) && InRange(L, maxId)
    requires count >= 0 && NeedReuse(L, maxId, count) <= DeletedCount(L)
    ensures Allocate(L, maxId, gameId, areaId, count) == Granted(g)
    ensures |g.ids| == count && Distinct(g.ids)
    ensures forall k :: 0 <= k < |g.ids| ==> 1 <= g.ids[k] <= maxId
    ensures DistinctSvc(g.ledger) && Unique(g.ledger) && InRange(g.ledger, maxId)
  {
    assert Allocate(L, maxId, gameId, areaId, count).Granted? by {
      AllocateFails(L, maxId, gameId, areaId, count);
    }
    g := Allocate(L, maxId, gameId, areaId, count).grant;
    AllocateDistinct(L, maxId, gameId, areaId, count);
    AllocateInRange(L, maxId, gameId, areaId, count);
    assert MaxSvc(L) <= maxId by {
      MaxSvcFacts(L);
      if |L| == 0 {
        assert maxId >= count by {
          PoolCount(L);
        }
      }
    }
    AllocateCount(L, maxId, gameId, areaId, count);
  }

  /** When every row's svc_id lies in [1, maxId], so does every id handed out
      and every row of the new table. */
  lemma AllocateInRange(L: Ledger, maxId: int, gameId: int, areaId: int, count: int)
    requires InRange(L, maxId)
    requires Allocate(L, maxId, gameId, areaId, count).Granted?
    ensures var g := Allocate(L, maxId, gameId, areaId, count).grant;
      && InRange(g.ledger, maxId)
      && forall k :: 0 <= k < |g.ids| ==> 1 <= g.ids[k] <= maxId
  {
    var need := NeedReuse(L, maxId, count);
    var g := Allocate(L, maxId, gameId, areaId, count).grant;
    AllocateFrame(L, maxId, gameId, areaId, count);
    AllocateOwned(L, maxId, gameId, areaId, count);
    assert MaxSvc(L) >= 0;
    if need > 0 {
      AllocateFails(L, maxId, gameId, areaId, count);
      AllocateReuse(L, maxId, gameId, areaId, count);
    } else {
      AllocateFresh(L, maxId, gameId, areaId, count);
    }
  }

  /** When no two rows share a svc_id, no id handed out is the svc_id of a
      row that was active before: reused ids come from soft-deleted rows and
      minted ids lie above the high-water mark. */
  lemma AllocateAvoidsActive(L: Ledger, maxId: int, gameId: int, areaId: int, count: int)
    requires DistinctSvc(L)
    requires Allocate(L, maxId, gameId, areaId, count).Granted?
    ensures var g := Allocate(L, maxId, gameId, areaId, count).grant;
      forall k, i :: 0 <= k < |g.ids| && 0 <= i < |L| && !L[i].deleted ==> g.ids[k] != L[i].svcId
  {
    var need := NeedReuse(L, maxId, count);
    var g := Allocate(L, maxId, gameId, areaId, count).grant;
    MaxSvcFacts(L);
    if need > 0 {
      AllocateFails(L, maxId, gameId, areaId, count);
      AllocateReuse(L, maxId, gameId, areaId, count);
      PickOrdered(L, need);
      var pick := ReusePool(L)[..need];
      forall k, i | 0 <= k < |g.ids| && 0 <= i < |L| && !L[i].deleted ensures g.ids[k] != L[i].svcId {
        if k < need {
          var j := pick[k].pos;
          assert g.ids[k] == Svcs(pick)[k] == L[j].svcId;
          assert L[j].deleted && j != i;
        }
      }
    } else {
      AllocateFresh(L, maxId, gameId, areaId, count);
    }
  }
}

=== FILE: examples.dfy ===
/**
 Concrete scenarios of the service, each worked out on a small table.
 */
module Scenarios {

  import opened SvcLedger
  import opened Allocation
  import opened Service
  import opened Sorting

  /** Ids 3 and 5 released, 8 the high-water mark, bound 10: the request for
      3 ids needs only one reused id (3 - (10 - 8) = 1), so it reuses the
      lowest, 3, and mints 9 and 10. */
  lemma ReuseLowestThenMint()
    ensures var L := [Record(1, 1, 3, true), Record(1, 1, 5, true), Record(1, 1, 8, false)];
      Get(L, 10, 1, 2, 3) ==
        Reply([3, 9, 10], 0,
              [Record(1, 2, 3, false), Record(1, 1, 5, true), Record(1, 1, 8, false),
               Record(1, 2, 9, false), Record(1, 2, 10, false)])
  {
    var L := [Record(1, 1, 3, true), Record(1, 1, 5, true), Record(1, 1, 8, false)];
    assert Slots(L, OwnedBy(1, 2)) == [];
    SampleAllocation();
    SampleUnique();
  }

  /** The table after ReuseLowestThenMint's allocation passes the unique index. */
  lemma SampleUnique()
    ensures Unique([Record(1, 2, 3, false), Record(1, 1, 5, true), Record(1, 1, 8, false),
                    Record(1, 2, 9, false), Record(1, 2, 10, false)])
  {
    var L' := [Record(1, 2, 3, false), Record(1, 1, 5, true), Record(1, 1, 8, false),
               Record(1, 2, 9, false), Record(1, 2, 10, false)];
    var ids := [3, 5, 8, 9, 10];
    assert forall k :: 0 <= k < 5 ==> L'[k].svcId == ids[k];
    assert StrictlySortedBy(ids, Id);
  }

  /** The allocation step of ReuseLowestThenMint. */
  lemma SampleAllocation()
    ensures Allocate([Record(1, 1, 3, true), Record(1, 1, 5, true), Record(1, 1, 8, false)], 10, 1, 2, 3) ==
      Granted(Grant([3, 9, 10],
                    [Record(1, 2, 3, false), Record(1, 1, 5, true), Record(1, 1, 8, false),
                     Record(1, 2, 9, false), Record(1, 2, 10, false)]))
  {
    SampleReuseStep();
    SampleReuseValues();
  }

  /** The values of ReuseLowestThenMint's reuse step: the ids and the rows. */
  lemma SampleReuseValues()
    ensures var L := [Record(1, 1, 3, true), Record(1, 1, 5, true), Record(1, 1, 8, false)];
      var pick := ReusePool(L)[..1];
      && Svcs(pick) + Mint(8, 2) == [3, 9, 10]
      && Reactivate(L, Positions(pick), 1, 2) + NewRecords(1, 2, Mint(8, 2)) ==
           [Record(1, 2, 3, false), Record(1, 1, 5, true), Record(1, 1, 8, false),
            Record(1, 2, 9, false), Record(1, 2, 10, false)]
  {
    var L := [Record(1, 1, 3, true), Record(1, 1, 5, true), Record(1, 1, 8, false)];
    SamplePool();
    assert ReusePool(L)[..1] == [Slot(0, 3)];
    SampleReactivate();
    SampleMinted();
  }

  /** ReuseLowestThenMint's request reuses one row and mints two above 8. */
  lemma SampleReuseStep()
    ensures var L := [Record(1, 1, 3, true), Record(1, 1, 5, true), Record(1, 1, 8, false)];
      var pick := ReusePool(L)[..1];
      Allocate(L, 10, 1, 2, 3) ==
        Granted(Grant(Svcs(pick) + Mint(8, 2), Reactivate(L, Positions(pick), 1, 2) + NewRecords(1, 2, Mint(8, 2))))
  {
    var L := [Record(1, 1, 3, true), Record(1, 1, 5, true), Record(1, 1, 8, false)];
    assert MaxSvc(L) == 8;
    SamplePool();
    AllocateByReuse(L, 10, 1, 2, 3, 1);
  }

  /** The two ids ReuseLowestThenMint mints above 8, as new rows of area 2. */
  lemma SampleMinted()
    ensures Mint(8, 2) == [9, 10]
    ensures NewRecords(1, 2, [9, 10]) == [Record(1, 2, 9, false), Record(1, 2, 10, false)]
  {
  }

  /** The row ReuseLowestThenMint takes over, rewritten to area 2. */
  lemma SampleReactivate()
    ensures var L := [Record(1, 1, 3, true), Record(1, 1, 5, true), Record(1, 1, 8, false)];
      && Positions([Slot(0, 3)]) == {0}
      && Svcs([Slot(0, 3)]) == [3]
      && Reactivate(L, {0}, 1, 2) == [Record(1, 2, 3, false), Record(1, 1, 5, true), Record(1, 1, 8, false)]
  {
  }

  /** The reuse pool of ReuseLowestThenMint: the released rows 3 and 5, lowest first. */
  lemma SamplePool()
    ensures ReusePool([Record(1, 1, 3, true), Record(1, 1, 5, true), Record(1, 1, 8, false)]) == [Slot(0, 3), Slot(1, 5)]
  {
    var L := [Record(1, 1, 3, true), Record(1, 1, 5, true), Record(1, 1, 8, false)];
    assert Slots(L, SoftDeleted) == [Slot(0, 3), Slot(1, 5)];
    assert Sort([Slot(0, 3), Slot(1, 5)], SlotKey) == [Slot(0, 3), Slot(1, 5)];
  }

  /** Bound 5 with ids 1 to 5 all active and none released: one more id
      cannot be had; the reply is error code 1 and the table is unchanged. */
  lemma FullTableRefuses()
    ensures var L := seq(5, k => Record(1, 1, k + 1, false));
      Get(L, 5, 1, 2, 1) == Reply([], 1, L)
  {
    var L := seq(5, k => Record(1, 1, k + 1, false));
    assert OwnedCount(L, 1, 2) == 0 by {
      assert (set i: nat | 0 <= i < |L| && Owns(L[i], 1, 2)) == {};
    }
    assert MaxSvc(L) == 5 by {
      MaxSvcFacts(L);
      assert L[4].svcId == 5;
    }
    assert DeletedCount(L) == 0 by {
      assert (set i: nat | 0 <= i < |L| && L[i].deleted) == {};
    }
    GetExhausted(L, 5, 1, 2, 1);
  }

  /** An area holding 12, 4, 9 and 7 shrunk to 2 keeps 4 and 7 and releases
      9 and 12. */
  lemma ShrinkDropsHighest()
    ensures var L := [Record(1, 1, 12, false), Record(1, 1, 4, false), Record(1, 1, 9, false), Record(1, 1, 7, false)];
      Resize(L, 65535, 1, 1, 2) ==
        Reply([4, 7], 0,
              [Record(1, 1, 12, true), Record(1, 1, 4, false), Record(1, 1, 9, true), Record(1, 1, 7, false)])
  {
    var L := [Record(1, 1, 12, false), Record(1, 1, 4, false), Record(1, 1, 9, false), Record(1, 1, 7, false)];
    var rows := [Slot(1, 4), Slot(3, 7), Slot(2, 9), Slot(0, 12)];
    SampleAreaRows();
    assert AreaRows(L, 1, 1) == rows;
    assert Resize(L, 65535, 1, 1, 2) == Reply(Svcs(rows)[..2], 0, Release(L, Positions(rows[2..])));
    SampleKept();
    SampleReleased();
  }

  /** The two lowest svc_ids of ShrinkDropsHighest's area. */
  lemma SampleKept()
    ensures Svcs([Slot(1, 4), Slot(3, 7), Slot(2, 9), Slot(0, 12)])[..2] == [4, 7]
  {
    var ids := Svcs([Slot(1, 4), Slot(3, 7), Slot(2, 9), Slot(0, 12)]);
    assert |ids| == 4 && ids[0] == 4 && ids[1] == 7;
  }

  /** The two highest rows of ShrinkDropsHighest sit at positions 0 and 2. */
  lemma SampleReleased()
    ensures var L := [Record(1, 1, 12, false), Record(1, 1, 4, false), Record(1, 1, 9, false), Record(1, 1, 7, false)];
      Release(L, Positions([Slot(1, 4), Slot(3, 7), Slot(2, 9), Slot(0, 12)][2..])) ==
        [Record(1, 1, 12, true), Record(1, 1, 4, false), Record(1, 1, 9, true), Record(1, 1, 7, false)]
  {
    assert [Slot(1, 4), Slot(3, 7), Slot(2, 9), Slot(0, 12)][2..] == [Slot(2, 9), Slot(0, 12)];
    assert Positions([Slot(2, 9), Slot(0, 12)]) == {0, 2};
  }

  /** The area listing of ShrinkDropsHighest, sorted by svc_id. */
  lemma SampleAreaRows()
    ensures AreaRows([Record(1, 1, 12, false), Record(1, 1, 4, false), Record(1, 1, 9, false), Record(1, 1, 7, false)], 1, 1)
      == [Slot(1, 4), Slot(3, 7), Slot(2, 9), Slot(0, 12)]
  {
    SampleAreaSlots();
    SampleAreaSort();
  }

  /** The area's rows of ShrinkDropsHighest in table order. */
  lemma SampleAreaSlots()
    ensures Slots([Record(1, 1, 12, false), Record(1, 1, 4, false), Record(1, 1, 9, false), Record(1, 1, 7, false)], OwnedBy(1, 1))
      == [Slot(0, 12), Slot(1, 4), Slot(2, 9), Slot(3, 7)]
  {
    var L := [Record(1, 1, 12, false), Record(1, 1, 4, false), Record(1, 1, 9, false), Record(1, 1, 7, false)];
    assert SlotsFrom(L, OwnedBy(1, 1), 3) == [Slot(3, 7)];
    assert SlotsFrom(L, OwnedBy(1, 1), 2) == [Slot(2, 9), Slot(3, 7)];
    assert SlotsFrom(L, OwnedBy(1, 1), 1) == [Slot(1, 4), Slot(2, 9), Slot(3, 7)];
  }

  /** The insertion sort of those rows by svc_id, one insertion at a time:
      the last row first, then each earlier row inserted into the sorted rest. */
  lemma SampleAreaSort()
    ensures Sort([Slot(0, 12), Slot(1, 4), Slot(2, 9), Slot(3, 7)], SlotKey)
      == [Slot(1, 4), Slot(3, 7), Slot(2, 9), Slot(0, 12)]
  {
    var s := [Slot(0, 12), Slot(1, 4), Slot(2, 9), Slot(3, 7)];
    assert s[3..] == [Slot(3, 7)] && s[3..][1..] == [];
    assert s[2..] == [Slot(2, 9), Slot(3, 7)] && s[2..][1..] == s[3..];
    assert s[1..] == [Slot(1, 4), Slot(2, 9), Slot(3, 7)] && s[1..][1..] == s[2..];
    assert Sort(s[3..], SlotKey) == [Slot(3, 7)];
    assert Sort(s[2..], SlotKey) == [Slot(3, 7), Slot(2, 9)] by {
      assert [Slot(3, 7)][1..] == [];
    }
    assert Sort(s[1..], SlotKey) == [Slot(1, 4), Slot(3, 7), Slot(2, 9)];
    assert Insert(Slot(0, 12), [Slot(2, 9)], SlotKey) == [Slot(2, 9), Slot(0, 12)] by {
      assert [Slot(2, 9)][1..] == [];
    }
    assert Insert(Slot(0, 12), [Slot(3, 7), Slot(2, 9)], SlotKey) == [Slot(3, 7), Slot(2, 9), Slot(0, 12)] by {
      assert [Slot(3, 7), Slot(2, 9)][1..] == [Slot(2, 9)];
    }
    assert [Slot(1, 4), Slot(3, 7), Slot(2, 9)][1..] == [Slot(3, 7), Slot(2, 9)];
  }

  /** With the default bound, the first request on an empty table gets 1, 2, 3. */
  lemma FirstRequest()
    ensures Get([], DefaultMaxSvcId, 7, 1, 3) ==
      Reply([1, 2, 3], 0, [Record(7, 1, 1, false), Record(7, 1, 2, false), Record(7, 1, 3, false)])
  {
    assert Slots([], OwnedBy(7, 1)) == [];
  }

  /** The reuse query does not filter by game: game 2 takes over the id game 1
      released, and the row is rewritten to game 2. */
  lemma ReuseCrossesGames()
    ensures Get([Record(1, 10, 1, true)], 1, 2, 20, 1) == Reply([1], 0, [Record(2, 20, 1, false)])
  {
    var L := [Record(1, 10, 1, true)];
    assert Slots(L, OwnedBy(2, 20)) == [];
    assert Slots(L, SoftDeleted) == [Slot(0, 1)];
    assert Positions([Slot(0, 1)]) == {0};
  }

  /** When two games hold the same svc_id, reusing one game's released row
      for the other game collides with the (game_id, svc_id) index at commit;
      the request rolls back with error code 1. Tables built only by these
      requests never reach this, since they keep svc_ids distinct across
      games (GetPreserves, ResizePreserves, RecyclePreserves). */
  lemma CrossGameReuseRejected()
    ensures var L := [Record(1, 10, 1, false), Record(2, 20, 1, true)];
      Unique(L) && Get(L, 1, 1, 11, 1) == Reply([], 1, L)
  {
    var L := [Record(1, 10, 1, false), Record(2, 20, 1, true)];
    assert Slots(L, OwnedBy(1, 11)) == [];
    assert Slots(L, SoftDeleted) == [Slot(1, 1)];
    assert Positions([Slot(1, 1)]) == {1};
    var L' := [Record(1, 10, 1, false), Record(1, 11, 1, false)];
    assert Allocate(L, 1, 1, 11, 1) == Granted(Grant([1], L'));
    assert !Unique(L') by {
      assert L'[0].gameId == L'[1].gameId && L'[0].svcId == L'[1].svcId;
    }
  }

  /** A bound lowered below the high-water mark (5 against a bound of 4)
      makes the reuse count exceed the request: one id is asked for, both
      released rows are taken over and two ids are handed out. */
  lemma BoundBelowMarkOvergrants()
    ensures var L := [Record(1, 1, 5, false), Record(1, 1, 1, true), Record(1, 1, 2, true)];
      Get(L, 4, 1, 2, 1) ==
        Reply([1, 2], 0, [Record(1, 1, 5, false), Record(1, 2, 1, false), Record(1, 2, 2, false)])
  {
    var L := [Record(1, 1, 5, false), Record(1, 1, 1, true), Record(1, 1, 2, true)];
    var L' := [Record(1, 1, 5, false), Record(1, 2, 1, false), Record(1, 2, 2, false)];
    assert Slots(L, OwnedBy(1, 2)) == [];
    assert MaxSvc(L) == 5;
    assert Slots(L, SoftDeleted) == [Slot(1, 1), Slot(2, 2)];
    assert Sort([Slot(1, 1), Slot(2, 2)], SlotKey) == [Slot(1, 1), Slot(2, 2)];
    assert Positions([Slot(1, 1), Slot(2, 2)]) == {1, 2};
    assert Allocate(L, 4, 1, 2, 1) == Granted(Grant([1, 2], L'));
    assert Unique(L');
  }

  /** With the bound (3) below the mark (5), even a negative count needs
      reuse (-1 - (3 - 5) = 1): the lowest released row is taken over by the
      area and its id answered. */
  lemma NegativeCountBelowMarkReuses()
    ensures var L := [Record(1, 1, 5, false), Record(1, 1, 1, true), Record(1, 1, 2, true)];
      Get(L, 3, 1, 2, -1) ==
        Reply([1], 0, [Record(1, 1, 5, false), Record(1, 2, 1, false), Record(1, 1, 2, true)])
  {
    var L := [Record(1, 1, 5, false), Record(1, 1, 1, true), Record(1, 1, 2, true)];
    var L' := [Record(1, 1, 5, false), Record(1, 2, 1, false), Record(1, 1, 2, true)];
    assert Slots(L, OwnedBy(1, 2)) == [];
    assert MaxSvc(L) == 5;
    assert Slots(L, SoftDeleted) == [Slot(1, 1), Slot(2, 2)];
    assert Sort([Slot(1, 1), Slot(2, 2)], SlotKey) == [Slot(1, 1), Slot(2, 2)];
    assert [Slot(1, 1), Slot(2, 2)][..1] == [Slot(1, 1)];
    assert Positions([Slot(1, 1)]) == {1};
    assert Allocate(L, 3, 1, 2, -1) == Granted(Grant([1], L'));
    assert Unique(L');
  }
}

=== FILE: ledger.dfy ===
/**
 The service-id ledger: the `svc_ids` table as an immutable sequence of rows.

 A row is never physically removed; it is created once and then toggles
 between active and soft-deleted by setting or clearing its deletion mark.
 The position of a row in the sequence stands for its auto-increment
 primary key, so appended rows are the newest ones.
 */
module SvcLedger {

  import Sorting

  /** One row of the table. `deleted` stands for `delete_time IS NOT NULL`;
      the creation and update timestamps carry no logic and are not kept. */
  datatype Record = Record(gameId: int, areaId: int, svcId: int, deleted: bool)

  type Ledger = seq<Record>

  /** The id-space bound used when the environment does not set one. */
  const DefaultMaxSvcId := 65535

  /** The table's unique index on (game_id, svc_id), over active and deleted rows alike. */
  predicate Unique(L: Ledger)
  {
    forall i, j :: 0 <= i < j < |L| ==> L[i].gameId != L[j].gameId || L[i].svcId != L[j].svcId
  }

  /** No two rows share a svc_id, whatever their game. Allocation keeps this
      stronger property because its high-water mark is taken over all games. */
  predicate DistinctSvc(L: Ledger)
  {
    forall i, j :: 0 <= i < j < |L| ==> L[i].svcId != L[j].svcId
  }

  /** Globally distinct svc_ids satisfy the (game_id, svc_id) index. */
  lemma DistinctSvcUnique(L: Ledger)
    requires DistinctSvc(L)
    ensures Unique(L)
  {
  }

  /** Every row's svc_id lies in [1, maxId]. */
  predicate InRange(L: Ledger, maxId: int)
  {
    forall i :: 0 <= i < |L| ==> 1 <= L[i].svcId <= maxId
  }

  /** A row is owned by an area when it is active and carries that game and area. */
  predicate Owns(r: Record, gameId: int, areaId: int)
  {
    r.gameId == gameId && r.areaId == areaId && !r.deleted
  }

  /** Some active row of the area carries `svcId`. */
  predicate HeldBy(L: Ledger, gameId: int, areaId: int, svcId: int)
  {
    exists i :: 0 <= i < |L| && Owns(L[i], gameId, areaId) && L[i].svcId == svcId
  }

  /** The two row filters the service queries with. */
  datatype Filter = SoftDeleted | OwnedBy(gameId: int, areaId: int)

  predicate Matches(f: Filter, r: Record)
  {
    match f
    case SoftDeleted => r.deleted
    case OwnedBy(g, a) => Owns(r, g, a)
  }

  /** A row as a query hands it back: its position and its svc_id. */
  datatype Slot = Slot(pos: nat, svcId: int)

  function SlotKey(s: Slot): (r: int) { s.svcId }

  predicate SlotOf(L: Ledger, s: Slot)
  {
    s.pos < |L| && L[s.pos].svcId == s.svcId
  }

  /** The high-water mark: the largest svc_id over every row of every game,
      or 0 when the table is empty. */
  function MaxSvc(L: Ledger): (r: int)
  {
    if |L| == 0 then 0
    else if |L| == 1 then L[0].svcId
    else
      var rest := MaxSvc(L[1..]);
      if L[0].svcId >= rest then L[0].svcId else rest
  }

  /** The high-water mark bounds every row's svc_id and, on a non-empty
      table, is some row's svc_id. */
  lemma {:induction false} MaxSvcFacts(L: Ledger)
    ensures forall i :: 0 <= i < |L| ==> L[i].svcId <= MaxSvc(L)
    ensures |L| == 0 ==> MaxSvc(L) == 0
    ensures |L| > 0 ==> exists i :: 0 <= i < |L| && L[i].svcId == MaxSvc(L)
  {
    if |L| > 1 {
      var rest := MaxSvc(L[1..]);
      MaxSvcFacts(L[1..]);
      assert forall i :: 1 <= i < |L| ==> L[i] == L[1..][i - 1];
      var j :| 0 <= j < |L[1..]| && L[1..][j].svcId == rest;
      assert L[j + 1].svcId == rest;
      if L[0].svcId >= rest {
        assert L[0].svcId == MaxSvc(L);
      } else {
        assert L[j + 1].svcId == MaxSvc(L);
      }
      forall i | 0 <= i < |L| ensures L[i].svcId <= MaxSvc(L) {
        if i > 0 {
          assert L[i].svcId == L[1..][i - 1].svcId <= rest;
        }
      }
    } else if |L| == 1 {
      assert L[0].svcId == MaxSvc(L);
    }
  }

  /** The rows at or after `start` that pass `f`, in table order. */
  function SlotsFrom(L: Ledger, f: Filter, start: nat): (r: seq<Slot>)
    decreases |L| - start
  {
    if start >= |L| then []
    else
      var rest := SlotsFrom(L, f, start + 1);
      if Matches(f, L[start]) then [Slot(start, L[start].svcId)] + rest else rest
  }

  /** The rows that pass `f`, in table order. */
  function Slots(L: Ledger, f: Filter): (r: seq<Slot>)
  {
    SlotsFrom(L, f, 0)
  }

  /** The query returns exactly the rows at or after `start` that pass `f`,
      each as it is in the table, in increasing position. */
  lemma {:induction false} SlotsFromFacts(L: Ledger, f: Filter, start: nat)
    ensures var r := SlotsFrom(L, f, start);
      && (forall k :: 0 <= k < |r| ==> SlotOf(L, r[k]) && Matches(f, L[r[k].pos]) && start <= r[k].pos)
      && (forall i :: start <= i < |L| && Matches(f, L[i]) ==> Slot(i, L[i].svcId) in r)
      && (forall k, l :: 0 <= k < l < |r| ==> r[k].pos < r[l].pos)
    decreases |L| - start
  {
    if start < |L| {
      var rest := SlotsFrom(L, f, start + 1);
      SlotsFromFacts(L, f, start + 1);
      if Matches(f, L[start]) {
        var r := [Slot(start, L[start].svcId)] + rest;
        assert SlotsFrom(L, f, start) == r;
        forall i | start <= i < |L| && Matches(f, L[i]) ensures Slot(i, L[i].svcId) in r {
          if i > start {
            assert Slot(i, L[i].svcId) in rest;
          }
        }
      }
    }
  }

  /** SlotsFromFacts for the whole table. */
  lemma SlotsFacts(L: Ledger, f: Filter)
    ensures var r := Slots(L, f);
      && (forall k :: 0 <= k < |r| ==> SlotOf(L, r[k]) && Matches(f, L[r[k].pos]))
      && (forall i :: 0 <= i < |L| && Matches(f, L[i]) ==> Slot(i, L[i].svcId) in r)
      && (forall k, l :: 0 <= k < l < |r| ==> r[k].pos < r[l].pos)
  {
    var r := SlotsFrom(L, f, 0);
    assert Slots(L, f) == r;
    SlotsFromFacts(L, f, 0);
    assert forall k :: 0 <= k < |r| ==> SlotOf(L, r[k]) && Matches(f, L[r[k].pos]);
    assert forall i :: 0 <= i < |L| && Matches(f, L[i]) ==> Slot(i, L[i].svcId) in r;
  }

  /** The positions at or after `start` whose rows pass `f`. */
  ghost function PositionsFrom(L: Ledger, f: Filter, start: nat): (r: set<nat>)
  {
    set i: nat | start <= i < |L| && Matches(f, L[i])
  }

  lemma PositionsStep(L: Ledger, f: Filter, start: nat)
    requires start < |L|
    ensures PositionsFrom(L, f, start) ==
      PositionsFrom(L, f, start + 1) + (if Matches(f, L[start]) then {start} else {})
    ensures start !in PositionsFrom(L, f, start + 1)
  {
  }

  /** The rows that pass `f` are listed once each, so their number is the
      number of table positions that pass `f`. */
  lemma {:induction false} SlotsCount(L: Ledger, f: Filter, start: nat)
    requires start <= |L|
    ensures |SlotsFrom(L, f, start)| == |PositionsFrom(L, f, start)|
    decreases |L| - start
  {
    if start < |L| {
      var rest := SlotsFrom(L, f, start + 1);
      var later := PositionsFrom(L, f, start + 1);
      SlotsCount(L, f, start + 1);
      PositionsStep(L, f, start);
      if Matches(f, L[start]) {
        assert SlotsFrom(L, f, start) == [Slot(start, L[start].svcId)] + rest;
        assert |later + {start}| == |later| + 1;
      } else {
        assert SlotsFrom(L, f, start) == rest;
        assert PositionsFrom(L, f, start) == later;
      }
    } else {
      assert PositionsFrom(L, f, start) == {};
    }
  }

  /** The number of active rows the area owns. */
  ghost function OwnedCount(L: Ledger, gameId: int, areaId: int): (r: nat)
  {
    |set i: nat | 0 <= i < |L| && Owns(L[i], gameId, areaId)|
  }

  /** The area's rows, as the ownership query returns them, carry exactly
      the svc_ids the area holds, one per owned row. */
  lemma OwnedSlots(L: Ledger, gameId: int, areaId: int)
    ensures forall v :: v in Svcs(Slots(L, OwnedBy(gameId, areaId))) <==> HeldBy(L, gameId, areaId, v)
    ensures |Slots(L, OwnedBy(gameId, areaId))| == OwnedCount(L, gameId, areaId)
  {
    OwnedSlotsHeld(L, gameId, areaId);
    SlotsCount(L, OwnedBy(gameId, areaId), 0);
    assert PositionsFrom(L, OwnedBy(gameId, areaId), 0) == set i: nat | 0 <= i < |L| && Owns(L[i], gameId, areaId);
  }

  lemma OwnedSlotsHeld(L: Ledger, gameId: int, areaId: int)
    ensures forall v :: v in Svcs(Slots(L, OwnedBy(gameId, areaId))) <==> HeldBy(L, gameId, areaId, v)
  {
    var rows := Slots(L, OwnedBy(gameId, areaId));
    SlotsFacts(L, OwnedBy(gameId, areaId));
    forall v | HeldBy(L, gameId, areaId, v) ensures v in Svcs(rows) {
      var i :| 0 <= i < |L| && Owns(L[i], gameId, areaId) && L[i].svcId == v;
      var k :| 0 <= k < |rows| && rows[k] == Slot(i, v);
      assert Svcs(rows)[k] == v;
    }
    forall v | v in Svcs(rows) ensures HeldBy(L, gameId, areaId, v) {
      var k :| 0 <= k < |rows| && Svcs(rows)[k] == v;
      assert Owns(L[rows[k].pos], gameId, areaId);
    }
  }

  /** Distinct positions make distinct rows. */
  lemma SlotsDistinct(L: Ledger, f: Filter)
    ensures Sorting.Distinct(Slots(L, f))
  {
    SlotsFacts(L, f);
  }

  /** A list of distinct rows of one table names each position at most once. */
  lemma DistinctSlotsDistinctPositions(L: Ledger, s: seq<Slot>)
    requires forall k :: 0 <= k < |s| ==> SlotOf(L, s[k])
    requires Sorting.Distinct(s)
    ensures forall k, l :: 0 <= k < l < |s| ==> s[k].pos != s[l].pos
  {
  }

  /** The svc_ids of a list of rows, in the same order. */
  function Svcs(s: seq<Slot>): (r: seq<int>)
  {
    seq(|s|, k requires 0 <= k < |s| => s[k].svcId)
  }

  /** Rows that occur in `b` whenever they occur in `a` carry, between them,
      every svc_id `a` carries. */
  lemma SvcsMembers(a: seq<Slot>, b: seq<Slot>)
    requires multiset(a) <= multiset(b)
    ensures forall v :: v in Svcs(a) ==> v in Svcs(b)
  {
    forall v | v in Svcs(a) ensures v in Svcs(b) {
      var k :| 0 <= k < |a| && Svcs(a)[k] == v;
      assert a[k] in multiset(b);
      var j :| 0 <= j < |b| && b[j] == a[k];
      assert Svcs(b)[j] == v;
    }
  }

  /** The table positions of a list of rows. */
  function Positions(s: seq<Slot>): (r: set<nat>)
  {
    set x | x in s :: x.pos
  }

  /** The rows in `P` become active again, owned by the given game and area. */
  function Reactivate(L: Ledger, P: set<nat>, gameId: int, areaId: int): (r: Ledger)
  {
    seq(|L|, i requires 0 <= i < |L| =>
      if i in P then Record(gameId, areaId, L[i].svcId, false) else L[i])
  }

  /** The rows in `P` are soft-deleted; nothing else about them changes. */
  function Release(L: Ledger, P: set<nat>): (r: Ledger)
  {
    seq(|L|, i requires 0 <= i < |L| =>
      if i in P then L[i].(deleted := true) else L[i])
  }

  /** Soft-deleting rows changes no row's game or svc_id, so it keeps the
      unique index, the global distinctness of svc_ids and the range bound. */
  lemma ReleaseKeepsKeys(L: Ledger, P: set<nat>, maxId: int)
    ensures var L' := Release(L, P);
      && |L'| == |L|
      && (forall i :: 0 <= i < |L| ==> L'[i].gameId == L[i].gameId && L'[i].svcId == L[i].svcId)
      && (Unique(L) ==> Unique(L'))
      && (DistinctSvc(L) ==> DistinctSvc(L'))
      && (InRange(L, maxId) ==> InRange(L', maxId))
  {
  }

  /** The `n` consecutive ids above `m`; none when `n` is not positive,
      as `range(1, n + 1)` is empty then. */
  function Mint(m: int, n: int): (r: seq<int>)
  {
    seq(if n > 0 then n else 0, k => m + 1 + k)
  }

  /** New active rows for the given ids, all owned by one game and area. */
  function NewRecords(gameId: int, areaId: int, ids: seq<int>): (r: Ledger)
  {
    seq(|ids|, k requires 0 <= k < |ids| => Record(gameId, areaId, ids[k], false))
  }
}

=== FILE: service.dfy ===
/**
 The three requests the service answers: get-or-allocate, recycle and
 resize. Each request is one atomic step over the table: it either commits
 all its changes or rolls back to the table it started from.
 */
module Service {

  import opened SvcLedger
  import opened Sorting
  import opened Allocation

  /** The reply (`svc_ids`, `err_code`) and the table after commit or rollback. */
  datatype Reply = Reply(ids: seq<int>, errCode: int, ledger: Ledger)

  /** The area's active rows, lowest svc_id first. */
  function AreaRows(L: Ledger, gameId: int, areaId: int): (r: seq<Slot>)
  {
    Sort(Slots(L, OwnedBy(gameId, areaId)), SlotKey)
  }

  /** Get-or-allocate: the area's active ids if it has any (in table order,
      as the query has no ORDER BY); otherwise nothing when `count` is 0, and
      a fresh allocation of `count` ids otherwise. A failed allocation, or a
      write the unique index rejects at commit, rolls back with error code 1. */
  function Get(L: Ledger, maxId: int, gameId: int, areaId: int, count: int): (r: Reply)
  {
    var held := Svcs(Slots(L, OwnedBy(gameId, areaId)));
    if |held| > 0 then Reply(held, 0, L)
    else if count == 0 then Reply([], 0, L)
    else
      match Allocate(L, maxId, gameId, areaId, count)
      case Exhausted => Reply([], 1, L)
      case Granted(g) => if Unique(g.ledger) then Reply(g.ids, 0, g.ledger) else Reply([], 1, L)
  }

  /** Recycle: soft-deletes every active row of the area. It always answers
      error code 0, so only the new table is returned. */
  function Recycle(L: Ledger, gameId: int, areaId: int): (r: Ledger)
  {
    var rows := Slots(L, OwnedBy(gameId, areaId));
    if |rows| == 0 then L
    else Release(L, Positions(rows))
  }

  /** Resize: an area without active rows answers error code 1; a negative
      target or the current count changes nothing; a smaller target
      soft-deletes the highest ids; a larger one allocates the difference,
      rolling back with error code 2 when that fails. */
  function Resize(L: Ledger, maxId: int, gameId: int, areaId: int, target: int): (r: Reply)
  {
    var rows := AreaRows(L, gameId, areaId);
    var ids := Svcs(rows);
    if |rows| == 0 then Reply([], 1, L)
    else if target < 0 || target == |rows| then Reply(ids, 0, L)
    else if target < |rows| then Reply(ids[..target], 0, Release(L, Positions(rows[target..])))
    else
      match Allocate(L, maxId, gameId, areaId, target - |rows|)
      case Exhausted => Reply([], 2, L)
      case Granted(g) => if Unique(g.ledger) then Reply(Sort(ids + g.ids, Id), 0, g.ledger) else Reply([], 2, L)
  }

  // ----- the area's rows -----

  /** The area's rows, sorted: one per active row of the area, ascending by
      svc_id, and strictly ascending when the unique index holds. */
  lemma AreaRowsFacts(L: Ledger, gameId: int, areaId: int)
    ensures var rows := AreaRows(L, gameId, areaId);
      && |rows| == OwnedCount(L, gameId, areaId)
      && SortedBy(rows, SlotKey)
      && (forall k :: 0 <= k < |rows| ==> SlotOf(L, rows[k]) && Owns(L[rows[k].pos], gameId, areaId))
      && (forall i :: 0 <= i < |L| && Owns(L[i], gameId, areaId) ==> Slot(i, L[i].svcId) in rows)
      && (forall k, l :: 0 <= k < l < |rows| ==> rows[k].pos != rows[l].pos)
      && (forall v :: v in Svcs(rows) <==> HeldBy(L, gameId, areaId, v))
  {
    AreaRowsShape(L, gameId, areaId);
    AreaRowsHeld(L, gameId, areaId);
  }

  lemma AreaRowsShape(L: Ledger, gameId: int, areaId: int)
    ensures var rows := AreaRows(L, gameId, areaId);
      && |rows| == OwnedCount(L, gameId, areaId)
      && SortedBy(rows, SlotKey)
      && (forall k :: 0 <= k < |rows| ==> SlotOf(L, rows[k]) && Owns(L[rows[k].pos], gameId, areaId))
      && (forall i :: 0 <= i < |L| && Owns(L[i], gameId, areaId) ==> Slot(i, L[i].svcId) in rows)
      && (forall k, l :: 0 <= k < l < |rows| ==> rows[k].pos != rows[l].pos)
  {
    var slots := Slots(L, OwnedBy(gameId, areaId));
    var rows := AreaRows(L, gameId, areaId);
    AreaRowsCount(L, gameId, areaId);
    SlotsFacts(L, OwnedBy(gameId, areaId));
    SortPerm(slots, SlotKey);
    SortSorted(slots, SlotKey);
    SlotsDistinct(L, OwnedBy(gameId, areaId));
    SortDistinct(slots, SlotKey);
    forall k | 0 <= k < |rows| ensures SlotOf(L, rows[k]) && Owns(L[rows[k].pos], gameId, areaId) {
      assert rows[k] in multiset(slots);
    }
    DistinctSlotsDistinctPositions(L, rows);
    forall i | 0 <= i < |L| && Owns(L[i], gameId, areaId) ensures Slot(i, L[i].svcId) in rows {
      assert Slot(i, L[i].svcId) in multiset(slots);
    }
  }

  lemma AreaRowsHeld(L: Ledger, gameId: int, areaId: int)
    ensures forall v :: v in Svcs(AreaRows(L, gameId, areaId)) <==> HeldBy(L, gameId, areaId, v)
  {
    var slots := Slots(L, OwnedBy(gameId, areaId));
    var rows := AreaRows(L, gameId, areaId);
    OwnedSlots(L, gameId, areaId);
    SortPerm(slots, SlotKey);
    SvcsMembers(rows, slots);
    SvcsMembers(slots, rows);
  }

  /** The area's listing has one entry per active row of the area. */
  lemma AreaRowsCount(L: Ledger, gameId: int, areaId: int)
    ensures |AreaRows(L, gameId, areaId)| == OwnedCount(L, gameId, areaId)
  {
    OwnedSlots(L, gameId, areaId);
  }

  /** Under the unique index the area's rows have strictly ascending svc_ids. */
  lemma AreaRowsStrict(L: Ledger, gameId: int, areaId: int)
    requires Unique(L)
    ensures StrictlySortedBy(AreaRows(L, gameId, areaId), SlotKey)
    ensures StrictlySortedBy(Svcs(AreaRows(L, gameId, areaId)), Id)
  {
    var rows := AreaRows(L, gameId, areaId);
    AreaRowsFacts(L, gameId, areaId);
    forall k, l | 0 <= k < l < |rows| ensures rows[k].svcId < rows[l].svcId {
      var i, j := rows[k].pos, rows[l].pos;
      assert L[i].gameId == L[j].gameId;
      if i < j { assert L[i].svcId != L[j].svcId; } else { assert L[j].svcId != L[i].svcId; }
    }
  }

  // ----- get-or-allocate -----

  /** An area that already holds ids gets exactly those back, whatever the
      count, and nothing is written. */
  lemma GetProvisioned(L: Ledger, maxId: int, gameId: int, areaId: int, count: int)
    requires OwnedCount(L, gameId, areaId) > 0
    ensures var r := Get(L, maxId, gameId, areaId, count);
      && r.errCode == 0
      && r.ledger == L
      && |r.ids| == OwnedCount(L, gameId, areaId)
      && (forall v :: v in r.ids <==> HeldBy(L, gameId, areaId, v))
  {
    OwnedSlots(L, gameId, areaId);
  }

  /** An area without ids asking for none gets none, and nothing is written. */
  lemma GetEmpty(L: Ledger, maxId: int, gameId: int, areaId: int)
    requires OwnedCount(L, gameId, areaId) == 0
    ensures Get(L, maxId, gameId, areaId, 0) == Reply([], 0, L)
  {
    OwnedSlots(L, gameId, areaId);
  }

  /** An area without ids asking for a negative count mints an empty range:
      it gets no ids, error code 0, and nothing is written. */
  lemma GetNegative(L: Ledger, maxId: int, gameId: int, areaId: int, count: int)
    requires OwnedCount(L, gameId, areaId) == 0 && count < 0
    requires Unique(L) && MaxSvc(L) <= maxId
    ensures Get(L, maxId, gameId, areaId, count) == Reply([], 0, L)
  {
    OwnedSlots(L, gameId, areaId);
    AllocateFresh(L, maxId, gameId, areaId, count);
    var g := Allocate(L, maxId, gameId, areaId, count).grant;
    assert g.ledger == L;
  }

  /** An area without ids whose allocation runs short of reusable rows gets
      error code 1 and no ids, and the table is rolled back. */
  lemma GetExhausted(L: Ledger, maxId: int, gameId: int, areaId: int, count: int)
    requires OwnedCount(L, gameId, areaId) == 0 && count != 0
    requires NeedReuse(L, maxId, count) > DeletedCount(L)
    ensures Get(L, maxId, gameId, areaId, count) == Reply([], 1, L)
  {
    OwnedSlots(L, gameId, areaId);
    AllocateFails(L, maxId, gameId, areaId, count);
  }

  /** An area without ids asking for `count > 0` ids, when the reusable rows
      suffice, gets `count` distinct ascending ids in [1, maxId] that it
      then holds and nothing else; no two rows share a svc_id afterwards
      and every row stays in range. */
  lemma GetAllocates(L: Ledger, maxId: int, gameId: int, areaId: int, count: int)
    requires DistinctSvc(L) && InRange(L, maxId)
    requires OwnedCount(L, gameId, areaId) == 0 && count > 0
    requires NeedReuse(L, maxId, count) <= DeletedCount(L)
    ensures var r := Get(L, maxId, gameId, areaId, count);
      && r.errCode == 0
      && |r.ids| == count
      && StrictlySortedBy(r.ids, Id)
      && (forall k :: 0 <= k < |r.ids| ==> 1 <= r.ids[k] <= maxId)
      && (forall v :: HeldBy(r.ledger, gameId, areaId, v) <==> v in r.ids)
      && DistinctSvc(r.ledger)
      && InRange(r.ledger, maxId)
  {
    OwnedSlots(L, gameId, areaId);
    AllocateFails(L, maxId, gameId, areaId, count);
    assert MaxSvc(L) <= maxId by {
      MaxSvcFacts(L);
      if |L| == 0 {
        assert DeletedCount(L) == 0 by {
          PoolCount(L);
        }
      }
    }
    var g := Allocate(L, maxId, gameId, areaId, count).grant;
    AllocateCount(L, maxId, gameId, areaId, count);
    AllocateSorted(L, maxId, gameId, areaId, count);
    AllocateDistinct(L, maxId, gameId, areaId, count);
    AllocateInRange(L, maxId, gameId, areaId, count);
    AllocateHeld(L, maxId, gameId, areaId, count);
    SortedDistinctIsStrict(g.ids);
  }

  /** Get never removes a row or changes a row's svc_id: every old row is
      left as it was, or was soft-deleted and is now an active row of the
      requesting area. It keeps the unique index, the global distinctness of
      svc_ids and the range bound. */
  lemma GetPreserves(L: Ledger, maxId: int, gameId: int, areaId: int, count: int)
    ensures var r := Get(L, maxId, gameId, areaId, count);
      && |r.ledger| >= |L|
      && (forall i :: 0 <= i < |L| ==>
            || r.ledger[i] == L[i]
            || (L[i].deleted && r.ledger[i] == Record(gameId, areaId, L[i].svcId, false)))
      && (forall i :: 0 <= i < |L| ==> r.ledger[i].svcId == L[i].svcId)
      && (Unique(L) ==> Unique(r.ledger))
      && (DistinctSvc(L) ==> DistinctSvc(r.ledger))
      && (InRange(L, maxId) ==> InRange(r.ledger, maxId))
  {
    var r := Get(L, maxId, gameId, areaId, count);
    if r.ledger != L {
      AllocateFrame(L, maxId, gameId, areaId, count);
      if DistinctSvc(L) { AllocateDistinct(L, maxId, gameId, areaId, count); }
      if InRange(L, maxId) { AllocateInRange(L, maxId, gameId, areaId, count); }
    }
  }

  // ----- recycle -----

  /** Recycle soft-deletes exactly the area's active rows and leaves every
      other row as it was; an area without active rows is a no-op. */
  lemma RecycleEffect(L: Ledger, gameId: int, areaId: int)
    ensures var L' := Recycle(L, gameId, areaId);
      && |L'| == |L|
      && (forall i :: 0 <= i < |L| && Owns(L[i], gameId, areaId) ==> L'[i] == L[i].(deleted := true))
      && (forall i :: 0 <= i < |L| && !Owns(L[i], gameId, areaId) ==> L'[i] == L[i])
      && (OwnedCount(L, gameId, areaId) == 0 ==> L' == L)
  {
    var rows := Slots(L, OwnedBy(gameId, areaId));
    OwnedSlots(L, gameId, areaId);
    SlotsFacts(L, OwnedBy(gameId, areaId));
    forall i | 0 <= i < |L| ensures i in Positions(rows) <==> Owns(L[i], gameId, areaId) {
      if Owns(L[i], gameId, areaId) {
        assert Slot(i, L[i].svcId) in rows;
      }
    }
    if |rows| == 0 {
      assert forall i :: 0 <= i < |L| ==> !Owns(L[i], gameId, areaId);
    }
  }

  /** After recycle the area holds nothing, and every other area holds
      exactly what it held before. */
  lemma RecycleReleasesArea(L: Ledger, gameId: int, areaId: int)
    ensures var L' := Recycle(L, gameId, areaId);
      && (forall v :: !HeldBy(L', gameId, areaId, v))
      && (forall g, a, v :: (g != gameId || a != areaId) ==> (HeldBy(L', g, a, v) <==> HeldBy(L, g, a, v)))
  {
    var L' := Recycle(L, gameId, areaId);
    RecycleEffect(L, gameId, areaId);
    forall g, a, v | (g != gameId || a != areaId) && HeldBy(L, g, a, v) ensures HeldBy(L', g, a, v) {
      var i :| 0 <= i < |L| && Owns(L[i], g, a) && L[i].svcId == v;
      assert L'[i] == L[i];
    }
  }

  /** Recycling twice is recycling once. */
  lemma RecycleIdempotent(L: Ledger, gameId: int, areaId: int)
    ensures Recycle(Recycle(L, gameId, areaId), gameId, areaId) == Recycle(L, gameId, areaId)
  {
    var L' := Recycle(L, gameId, areaId);
    RecycleEffect(L, gameId, areaId);
    RecycleEffect(L', gameId, areaId);
    assert OwnedCount(L', gameId, areaId) == 0 by {
      assert (set i: nat | 0 <= i < |L'| && Owns(L'[i], gameId, areaId)) == {};
    }
  }

  /** Recycle only flips deletion marks, so it keeps the unique index, the
      global distinctness of svc_ids and the range bound. */
  lemma RecyclePreserves(L: Ledger, maxId: int, gameId: int, areaId: int)
    ensures var L' := Recycle(L, gameId, areaId);
      && |L'| == |L|
      && (forall i :: 0 <= i < |L| ==> L'[i].gameId == L[i].gameId && L'[i].svcId == L[i].svcId)
      && (Unique(L) ==> Unique(L'))
      && (DistinctSvc(L) ==> DistinctSvc(L'))
      && (InRange(L, maxId) ==> InRange(L', maxId))
  {
    ReleaseKeepsKeys(L, Positions(Slots(L, OwnedBy(gameId, areaId))), maxId);
  }

  // ----- resize -----

  /** An area without active rows cannot be resized: error code 1, no ids,
      nothing written. */
  lemma ResizeUnprovisioned(L: Ledger, maxId: int, gameId: int, areaId: int, target: int)
    requires OwnedCount(L, gameId, areaId) == 0
    ensures Resize(L, maxId, gameId, areaId, target) == Reply([], 1, L)
  {
    AreaRowsShape(L, gameId, areaId);
  }

  /** A negative target, or the current count, returns the area's ids in
      ascending order and writes nothing. */
  lemma ResizeUnchanged(L: Ledger, maxId: int, gameId: int, areaId: int, target: int)
    requires OwnedCount(L, gameId, areaId) > 0
    requires target < 0 || target == OwnedCount(L, gameId, areaId)
    ensures var r := Resize(L, maxId, gameId, areaId, target);
      && r.errCode == 0
      && r.ledger == L
      && |r.ids| == OwnedCount(L, gameId, areaId)
      && SortedBy(r.ids, Id)
      && (Unique(L) ==> StrictlySortedBy(r.ids, Id))
      && (forall v :: v in r.ids <==> HeldBy(L, gameId, areaId, v))
  {
    var rows := AreaRows(L, gameId, areaId);
    AreaRowsFacts(L, gameId, areaId);
    assert SortedBy(Svcs(rows), Id) by {
      forall k, l | 0 <= k < l < |rows| ensures Svcs(rows)[k] <= Svcs(rows)[l] {
        assert SlotKey(rows[k]) <= SlotKey(rows[l]);
      }
    }
    if Unique(L) { AreaRowsStrict(L, gameId, areaId); }
  }

  /** The rows of an area, as AreaRows lists them. */
  predicate AreaListing(L: Ledger, gameId: int, areaId: int, rows: seq<Slot>)
  {
    && StrictlySortedBy(rows, SlotKey)
    && (forall k :: 0 <= k < |rows| ==> SlotOf(L, rows[k]) && Owns(L[rows[k].pos], gameId, areaId))
    && (forall i :: 0 <= i < |L| && Owns(L[i], gameId, areaId) ==> Slot(i, L[i].svcId) in rows)
  }

  /** How releasing the top of an area's listing treats one row: an active
      row of the area is released exactly when its svc_id is not among the
      kept ids, and then it lies above every kept id; any other row is left
      as it was. */
  lemma ShrinkRow(L: Ledger, gameId: int, areaId: int, rows: seq<Slot>, target: int, i: int)
    requires AreaListing(L, gameId, areaId, rows)
    requires 0 <= target < |rows|
    requires 0 <= i < |L|
    ensures var kept := Svcs(rows)[..target];
      var L' := Release(L, Positions(rows[target..]));
      && L'[i] == (if Owns(L[i], gameId, areaId) && L[i].svcId !in kept then L[i].(deleted := true) else L[i])
      && (Owns(L[i], gameId, areaId) && L[i].svcId !in kept ==> forall k :: 0 <= k < |kept| ==> kept[k] < L[i].svcId)
  {
    var kept := Svcs(rows)[..target];
    if Owns(L[i], gameId, areaId) {
      var p :| 0 <= p < |rows| && rows[p] == Slot(i, L[i].svcId);
      if p < target {
        assert kept[p] == L[i].svcId;
        assert i !in Positions(rows[target..]) by {
          forall q | target <= q < |rows| ensures rows[q].pos != i {
            assert rows[p].svcId < rows[q].svcId;
          }
        }
      } else {
        assert rows[p] in rows[target..];
        assert i in Positions(rows[target..]);
        forall k | 0 <= k < |kept| ensures kept[k] < L[i].svcId {
          assert kept[k] == rows[k].svcId;
        }
      }
    } else {
      assert i !in Positions(rows[target..]) by {
        forall q | target <= q < |rows| ensures rows[q].pos != i {
          assert Owns(L[rows[q].pos], gameId, areaId);
        }
      }
    }
  }

  /** Shrinking to `target` keeps the `target` lowest ids of the area,
      ascending, releases every other active row of the area (each above
      every kept id) and touches no other row. */
  lemma ResizeShrink(L: Ledger, maxId: int, gameId: int, areaId: int, target: int)
    requires Unique(L)
    requires 0 <= target < OwnedCount(L, gameId, areaId)
    ensures var r := Resize(L, maxId, gameId, areaId, target);
      && r.errCode == 0
      && |r.ids| == target
      && StrictlySortedBy(r.ids, Id)
      && |r.ledger| == |L|
      && (forall i :: 0 <= i < |L| ==>
            r.ledger[i] == if Owns(L[i], gameId, areaId) && L[i].svcId !in r.ids then L[i].(deleted := true) else L[i])
      && (forall i, k :: 0 <= i < |L| && Owns(L[i], gameId, areaId) && L[i].svcId !in r.ids && 0 <= k < |r.ids| ==>
            r.ids[k] < L[i].svcId)
  {
    var rows := AreaRows(L, gameId, areaId);
    var r := Resize(L, maxId, gameId, areaId, target);
    ShrinkSetup(L, maxId, gameId, areaId, target);
    assert StrictlySortedBy(r.ids, Id) by {
      AreaRowsStrict(L, gameId, areaId);
    }
    forall i | 0 <= i < |L| ensures
      && r.ledger[i] == (if Owns(L[i], gameId, areaId) && L[i].svcId !in r.ids then L[i].(deleted := true) else L[i])
      && (Owns(L[i], gameId, areaId) && L[i].svcId !in r.ids ==> forall k :: 0 <= k < |r.ids| ==> r.ids[k] < L[i].svcId)
    {
      ShrinkRow(L, gameId, areaId, rows, target, i);
    }
  }

  /** After shrinking, the area holds exactly the kept ids. */
  lemma ResizeShrinkHolds(L: Ledger, maxId: int, gameId: int, areaId: int, target: int)
    requires Unique(L)
    requires 0 <= target < OwnedCount(L, gameId, areaId)
    ensures var r := Resize(L, maxId, gameId, areaId, target);
      forall v :: HeldBy(r.ledger, gameId, areaId, v) <==> v in r.ids
  {
    var rows := AreaRows(L, gameId, areaId);
    var r := Resize(L, maxId, gameId, areaId, target);
    ShrinkSetup(L, maxId, gameId, areaId, target);
    forall v | HeldBy(r.ledger, gameId, areaId, v) ensures v in r.ids {
      var i :| 0 <= i < |r.ledger| && Owns(r.ledger[i], gameId, areaId) && r.ledger[i].svcId == v;
      ShrinkRow(L, gameId, areaId, rows, target, i);
    }
    forall v | v in r.ids ensures HeldBy(r.ledger, gameId, areaId, v) {
      var k :| 0 <= k < |r.ids| && r.ids[k] == v;
      var i := rows[k].pos;
      assert L[i].svcId == v;
      ShrinkRow(L, gameId, areaId, rows, target, i);
    }
  }

  /** A shrink answers the lowest `target` ids of the area's listing and
      releases the rest of the listing. */
  lemma ShrinkSetup(L: Ledger, maxId: int, gameId: int, areaId: int, target: int)
    requires Unique(L)
    requires 0 <= target < OwnedCount(L, gameId, areaId)
    ensures var rows := AreaRows(L, gameId, areaId);
      && AreaListing(L, gameId, areaId, rows)
      && target < |rows|
      && Resize(L, maxId, gameId, areaId, target) ==
           Reply(Svcs(rows)[..target], 0, Release(L, Positions(rows[target..])))
  {
    AreaRowsShape(L, gameId, areaId);
    AreaRowsStrict(L, gameId, areaId);
  }

  /** Growing an area whose allocation runs short of reusable rows answers
      error code 2 with no ids, and the table is rolled back. */
  lemma ResizeGrowExhausted(L: Ledger, maxId: int, gameId: int, areaId: int, target: int)
    requires 0 < OwnedCount(L, gameId, areaId) < target
    requires NeedReuse(L, maxId, target - OwnedCount(L, gameId, areaId)) > DeletedCount(L)
    ensures Resize(L, maxId, gameId, areaId, target) == Reply([], 2, L)
  {
    AreaRowsShape(L, gameId, areaId);
    AllocateFails(L, maxId, gameId, areaId, target - OwnedCount(L, gameId, areaId));
  }

  /** Growing an area to `target` ids, when the reusable rows suffice,
      answers `target` distinct ascending ids in [1, maxId], among them every
      id the area held. */
  lemma ResizeGrow(L: Ledger, maxId: int, gameId: int, areaId: int, target: int)
    requires DistinctSvc(L) && InRange(L, maxId)
    requires 0 < OwnedCount(L, gameId, areaId) < target
    requires NeedReuse(L, maxId, target - OwnedCount(L, gameId, areaId)) <= DeletedCount(L)
    ensures var r := Resize(L, maxId, gameId, areaId, target);
      && r.errCode == 0
      && |r.ids| == target
      && StrictlySortedBy(r.ids, Id)
      && (forall k :: 0 <= k < |r.ids| ==> 1 <= r.ids[k] <= maxId)
      && (forall v :: HeldBy(L, gameId, areaId, v) ==> v in r.ids)
  {
    var rows := AreaRows(L, gameId, areaId);
    var ids := Svcs(rows);
    var g := GrowSetup(L, maxId, gameId, areaId, target);
    var r := Resize(L, maxId, gameId, areaId, target);
    assert r.errCode == 0 && r.ids == Sort(ids + g.ids, Id);
    MergeIds(ids, g.ids, maxId);
    assert forall v :: HeldBy(L, gameId, areaId, v) ==> v in ids by {
      AreaRowsHeld(L, gameId, areaId);
    }
  }

  /** The ids a growth answers are the ones the area held and the ones the
      allocation of the missing number handed out. */
  lemma ResizeGrowMerges(L: Ledger, maxId: int, gameId: int, areaId: int, target: int)
    requires DistinctSvc(L) && InRange(L, maxId)
    requires 0 < OwnedCount(L, gameId, areaId) < target
    requires NeedReuse(L, maxId, target - OwnedCount(L, gameId, areaId)) <= DeletedCount(L)
    ensures Allocate(L, maxId, gameId, areaId, target - OwnedCount(L, gameId, areaId)).Granted?
    ensures forall v :: v in Resize(L, maxId, gameId, areaId, target).ids <==>
      HeldBy(L, gameId, areaId, v) || v in Allocate(L, maxId, gameId, areaId, target - OwnedCount(L, gameId, areaId)).grant.ids
  {
    var rows := AreaRows(L, gameId, areaId);
    var ids := Svcs(rows);
    var g := GrowSetup(L, maxId, gameId, areaId, target);
    var r := Resize(L, maxId, gameId, areaId, target);
    assert Allocate(L, maxId, gameId, areaId, target - OwnedCount(L, gameId, areaId)) == Granted(g);
    assert r.ids == Sort(ids + g.ids, Id);
    assert forall v :: v in r.ids <==> v in ids || v in g.ids by {
      MergeIds(ids, g.ids, maxId);
    }
    assert forall v :: v in ids <==> HeldBy(L, gameId, areaId, v) by {
      AreaRowsHeld(L, gameId, areaId);
    }
  }

  /** After growing, the area holds exactly the ids the reply lists. */
  lemma ResizeGrowHolds(L: Ledger, maxId: int, gameId: int, areaId: int, target: int)
    requires DistinctSvc(L) && InRange(L, maxId)
    requires 0 < OwnedCount(L, gameId, areaId) < target
    requires NeedReuse(L, maxId, target - OwnedCount(L, gameId, areaId)) <= DeletedCount(L)
    ensures var r := Resize(L, maxId, gameId, areaId, target);
      forall v :: HeldBy(r.ledger, gameId, areaId, v) <==> v in r.ids
  {
    var rows := AreaRows(L, gameId, areaId);
    var ids := Svcs(rows);
    var g := GrowSetup(L, maxId, gameId, areaId, target);
    var r := Resize(L, maxId, gameId, areaId, target);
    assert r.ledger == g.ledger && r.ids == Sort(ids + g.ids, Id);
    assert forall v :: v in r.ids <==> v in ids || v in g.ids by {
      MergeIds(ids, g.ids, maxId);
    }
    assert forall v :: v in ids <==> HeldBy(L, gameId, areaId, v) by {
      AreaRowsHeld(L, gameId, areaId);
    }
    assert forall v :: HeldBy(g.ledger, gameId, areaId, v) <==> HeldBy(L, gameId, areaId, v) || v in g.ids by {
      AllocateHeld(L, maxId, gameId, areaId, target - |rows|);
    }
    HeldAfterMerge(L, g.ledger, gameId, areaId, ids, g.ids, r.ids);
  }

  /** If an area held `a` and gained `b`, and `m` lists both, it holds `m`. */
  lemma HeldAfterMerge(L: Ledger, L': Ledger, gameId: int, areaId: int, a: seq<int>, b: seq<int>, m: seq<int>)
    requires forall v :: v in a <==> HeldBy(L, gameId, areaId, v)
    requires forall v :: HeldBy(L', gameId, areaId, v) <==> HeldBy(L, gameId, areaId, v) || v in b
    requires forall v :: v in m <==> v in a || v in b
    ensures forall v :: HeldBy(L', gameId, areaId, v) <==> v in m
  {
  }

  /** The facts both growth lemmas start from: the allocation is granted and
      accepted, the reply merges the held ids with the granted ones, and those
      two lists are disjoint and lie in [1, maxId]. Returns the grant. */
  lemma GrowSetup(L: Ledger, maxId: int, gameId: int, areaId: int, target: int) returns (g: Grant)
    requires DistinctSvc(L) && InRange(L, maxId)
    requires 0 < OwnedCount(L, gameId, areaId) < target
    requires NeedReuse(L, maxId, target - OwnedCount(L, gameId, areaId)) <= DeletedCount(L)
    ensures var rows := AreaRows(L, gameId, areaId);
      && |rows| == OwnedCount(L, gameId, areaId)
      && Allocate(L, maxId, gameId, areaId, target - |rows|) == Granted(g)
      && Resize(L, maxId, gameId, areaId, target) == Reply(Sort(Svcs(rows) + g.ids, Id), 0, g.ledger)
      && Distinct(Svcs(rows) + g.ids)
      && |g.ids| == target - |rows|
      && (forall k :: 0 <= k < |rows| ==> 1 <= Svcs(rows)[k] <= maxId)
      && (forall k :: 0 <= k < |g.ids| ==> 1 <= g.ids[k] <= maxId)
  {
    var rows := AreaRows(L, gameId, areaId);
    var ids := Svcs(rows);
    g := GrowGrant(L, maxId, gameId, areaId, target);
    GrowReply(L, maxId, gameId, areaId, target);
    GrowDisjoint(L, maxId, gameId, areaId, target);
    assert forall k :: 0 <= k < |ids| ==> 1 <= ids[k] <= maxId by {
      AreaRowsShape(L, gameId, areaId);
      forall k | 0 <= k < |ids| ensures 1 <= ids[k] <= maxId {
        assert ids[k] == L[rows[k].pos].svcId;
      }
    }
  }

  /** The allocation a growth asks for is granted, accepted by the unique
      index, and hands out exactly the missing number of ids in [1, maxId]. */
  lemma GrowGrant(L: Ledger, maxId: int, gameId: int, areaId: int, target: int) returns (g: Grant)
    requires DistinctSvc(L) && InRange(L, maxId)
    requires 0 < OwnedCount(L, gameId, areaId) < target
    requires NeedReuse(L, maxId, target - OwnedCount(L, gameId, areaId)) <= DeletedCount(L)
    ensures var rows := AreaRows(L, gameId, areaId);
      && |rows| == OwnedCount(L, gameId, areaId)
      && Allocate(L, maxId, gameId, areaId, target - |rows|) == Granted(g)
      && Unique(g.ledger)
      && |g.ids| == target - |rows|
      && (forall k :: 0 <= k < |g.ids| ==> 1 <= g.ids[k] <= maxId)
  {
    var rows := AreaRows(L, gameId, areaId);
    AreaRowsCount(L, gameId, areaId);
    g := AllocateGranted(L, maxId, gameId, areaId, target - |rows|);
  }

  /** Merging two lists of ids in [1, maxId] that share no element gives a
      strictly ascending list of every id of either, all in [1, maxId]. */
  lemma MergeIds(a: seq<int>, b: seq<int>, maxId: int)
    requires Distinct(a + b)
    requires forall k :: 0 <= k < |a| ==> 1 <= a[k] <= maxId
    requires forall k :: 0 <= k < |b| ==> 1 <= b[k] <= maxId
    ensures var m := Sort(a + b, Id);
      && |m| == |a| + |b|
      && StrictlySortedBy(m, Id)
      && (forall k :: 0 <= k < |m| ==> 1 <= m[k] <= maxId)
      && (forall v :: v in m <==> v in a || v in b)
  {
    var m := Sort(a + b, Id);
    SortUnion(a, b);
    forall k | 0 <= k < |m| ensures 1 <= m[k] <= maxId {
      assert m[k] in a || m[k] in b;
    }
  }

  /** With the allocation granted and accepted by the unique index, the
      reply is the sorted merge of the held and the granted ids. */
  lemma GrowReply(L: Ledger, maxId: int, gameId: int, areaId: int, target: int)
    requires 0 < |AreaRows(L, gameId, areaId)| < target
    requires var a := Allocate(L, maxId, gameId, areaId, target - |AreaRows(L, gameId, areaId)|);
      a.Granted? && Unique(a.grant.ledger)
    ensures var g := Allocate(L, maxId, gameId, areaId, target - |AreaRows(L, gameId, areaId)|).grant;
      Resize(L, maxId, gameId, areaId, target) ==
        Reply(Sort(Svcs(AreaRows(L, gameId, areaId)) + g.ids, Id), 0, g.ledger)
  {
  }

  /** When no two rows share a svc_id, the ids an area holds and the ids
      allocated to it have nothing in common, and neither list repeats. */
  lemma GrowDisjoint(L: Ledger, maxId: int, gameId: int, areaId: int, target: int)
    requires DistinctSvc(L)
    requires 0 < |AreaRows(L, gameId, areaId)| < target
    requires Allocate(L, maxId, gameId, areaId, target - |AreaRows(L, gameId, areaId)|).Granted?
    ensures Distinct(Svcs(AreaRows(L, gameId, areaId)) + Allocate(L, maxId, gameId, areaId, target - |AreaRows(L, gameId, areaId)|).grant.ids)
  {
    var rows := AreaRows(L, gameId, areaId);
    var ids := Svcs(rows);
    var add := target - |rows|;
    var g := Allocate(L, maxId, gameId, areaId, add).grant;
    assert Distinct(ids) by {
      DistinctSvcUnique(L);
      AreaRowsStrict(L, gameId, areaId);
    }
    assert Distinct(g.ids) by {
      AllocateDistinct(L, maxId, gameId, areaId, add);
    }
    assert forall k, l :: 0 <= k < |ids| && 0 <= l < |g.ids| ==> ids[k] != g.ids[l] by {
      AreaRowsShape(L, gameId, areaId);
      AllocateAvoidsActive(L, maxId, gameId, areaId, add);
      forall k, l | 0 <= k < |ids| && 0 <= l < |g.ids| ensures ids[k] != g.ids[l] {
        assert ids[k] == L[rows[k].pos].svcId && !L[rows[k].pos].deleted;
      }
    }
    DisjointConcat(ids, g.ids);
  }

  /** Two lists without repetitions that share no element concatenate to a
      list without repetitions. */
  lemma DisjointConcat(a: seq<int>, b: seq<int>)
    requires Distinct(a) && Distinct(b)
    requires forall k, l :: 0 <= k < |a| && 0 <= l < |b| ==> a[k] != b[l]
    ensures Distinct(a + b)
  {
    var all := a + b;
    forall k, l | 0 <= k < l < |all| ensures all[k] != all[l] {
      if |a| <= k {
        assert all[k] == b[k - |a|] && all[l] == b[l - |a|];
      } else if |a| <= l {
        assert all[l] == b[l - |a|];
      }
    }
  }

  /** Resize never removes a row or changes a row's svc_id, and it keeps the
      unique index, the global distinctness of svc_ids and the range bound. */
  lemma ResizePreserves(L: Ledger, maxId: int, gameId: int, areaId: int, target: int)
    ensures var r := Resize(L, maxId, gameId, areaId, target);
      && |r.ledger| >= |L|
      && (forall i :: 0 <= i < |L| ==> r.ledger[i].svcId == L[i].svcId)
      && (Unique(L) ==> Unique(r.ledger))
      && (DistinctSvc(L) ==> DistinctSvc(r.ledger))
      && (InRange(L, maxId) ==> InRange(r.ledger, maxId))
  {
    var rows := AreaRows(L, gameId, areaId);
    if |rows| == 0 || target < 0 || target == |rows| {
      ResizeNoWrite(L, maxId, gameId, areaId, target);
    } else if target < |rows| {
      ShrinkPreserves(L, maxId, gameId, areaId, target);
    } else {
      GrowPreserves(L, maxId, gameId, areaId, target);
    }
  }

  lemma ShrinkPreserves(L: Ledger, maxId: int, gameId: int, areaId: int, target: int)
    requires 0 <= target < |AreaRows(L, gameId, areaId)|
    ensures var r := Resize(L, maxId, gameId, areaId, target);
      && |r.ledger| >= |L|
      && (forall i :: 0 <= i < |L| ==> r.ledger[i].svcId == L[i].svcId)
      && (Unique(L) ==> Unique(r.ledger))
      && (DistinctSvc(L) ==> DistinctSvc(r.ledger))
      && (InRange(L, maxId) ==> InRange(r.ledger, maxId))
  {
    ResizeShrinkLedger(L, maxId, gameId, areaId, target);
    ReleaseKeepsKeys(L, Positions(AreaRows(L, gameId, areaId)[target..]), maxId);
  }

  lemma GrowPreserves(L: Ledger, maxId: int, gameId: int, areaId: int, target: int)
    requires 0 < |AreaRows(L, gameId, areaId)| < target
    ensures var r := Resize(L, maxId, gameId, areaId, target);
      && |r.ledger| >= |L|
      && (forall i :: 0 <= i < |L| ==> r.ledger[i].svcId == L[i].svcId)
      && (Unique(L) ==> Unique(r.ledger))
      && (DistinctSvc(L) ==> DistinctSvc(r.ledger))
      && (InRange(L, maxId) ==> InRange(r.ledger, maxId))
  {
    var add := target - |AreaRows(L, gameId, areaId)|;
    var r := Resize(L, maxId, gameId, areaId, target);
    var a := Allocate(L, maxId, gameId, areaId, add);
    ResizeGrowLedger(L, maxId, gameId, areaId, target);
    if r.ledger != L {
      assert a.Granted? && r.ledger == a.grant.ledger;
      assert |r.ledger| >= |L| && forall i :: 0 <= i < |L| ==> r.ledger[i].svcId == L[i].svcId by {
        AllocateFrame(L, maxId, gameId, areaId, add);
      }
      assert DistinctSvc(L) ==> DistinctSvc(r.ledger) by {
        if DistinctSvc(L) { AllocateDistinct(L, maxId, gameId, areaId, add); }
      }
      assert InRange(L, maxId) ==> InRange(r.ledger, maxId) by {
        if InRange(L, maxId) { AllocateInRange(L, maxId, gameId, areaId, add); }
      }
    }
  }

  lemma ResizeNoWrite(L: Ledger, maxId: int, gameId: int, areaId: int, target: int)
    requires |AreaRows(L, gameId, areaId)| == 0 || target < 0 || target == |AreaRows(L, gameId, areaId)|
    ensures Resize(L, maxId, gameId, areaId, target).ledger == L
  {
  }

  lemma ResizeShrinkLedger(L: Ledger, maxId: int, gameId: int, areaId: int, target: int)
    requires 0 <= target < |AreaRows(L, gameId, areaId)|
    ensures Resize(L, maxId, gameId, areaId, target).ledger ==
      Release(L, Positions(AreaRows(L, gameId, areaId)[target..]))
  {
  }

  lemma ResizeGrowLedger(L: Ledger, maxId: int, gameId: int, areaId: int, target: int)
    requires 0 < |AreaRows(L, gameId, areaId)| < target
    ensures var r := Resize(L, maxId, gameId, areaId, target);
      var a := Allocate(L, maxId, gameId, areaId, target - |AreaRows(L, gameId, areaId)|);
      r.ledger == L || (a.Granted? && r.ledger == a.grant.ledger)
  {
  }
}

=== FILE: sorting.dfy ===
/**
 An insertion sort by an integer key, used wherever the service sorts:
 the reuse query's ORDER BY svc_id, the resize query's ORDER BY svc_id
 and the final `sort()` of merged id lists.
 */
module Sorting {

  /** Keys never decrease from left to right. */
  predicate SortedBy<T>(s: seq<T>, key: T -> int)
  {
    forall i, j :: 0 <= i < j < |s| ==> key(s[i]) <= key(s[j])
  }

  /** Keys strictly increase from left to right. */
  predicate StrictlySortedBy<T>(s: seq<T>, key: T -> int)
  {
    forall i, j :: 0 <= i < j < |s| ==> key(s[i]) < key(s[j])
  }

  /** No element occurs twice. */
  predicate Distinct<T(==)>(s: seq<T>)
  {
    forall i, j :: 0 <= i < j < |s| ==> s[i] != s[j]
  }

  /** The identity key, for sorting plain integers. */
  function Id(x: int): (r: int) { x }

  /** Inserts `x` before the first element whose key is at least `x`'s. */
  function Insert<T(==)>(x: T, s: seq<T>, key: T -> int): (r: seq<T>)
    ensures |r| == |s| + 1
  {
    if |s| == 0 then [x]
    else if key(x) <= key(s[0]) then [x] + s
    else
      [s[0]] + Insert(x, s[1..], key)
  }

  /** Sorts `s` by `key`. Elements with equal keys keep their input order,
      but no lemma relies on that. */
  function Sort<T(==)>(s: seq<T>, key: T -> int): (r: seq<T>)
    ensures |r| == |s|
  {
    if |s| == 0 then []
    else
      Insert(s[0], Sort(s[1..], key), key)
  }

  /** Insertion adds `x` and keeps every element of `s`. */
  lemma {:induction false} InsertPerm<T>(x: T, s: seq<T>, key: T -> int)
    ensures multiset(Insert(x, s, key)) == multiset(s) + multiset{x}
  {
    if |s| > 0 && key(s[0]) < key(x) {
      InsertPerm(x, s[1..], key);
      assert s == [s[0]] + s[1..];
    }
  }

  /** Sorting permutes its input. */
  lemma {:induction false} SortPerm<T>(s: seq<T>, key: T -> int)
    ensures multiset(Sort(s, key)) == multiset(s)
  {
    if |s| > 0 {
      SortPerm(s[1..], key);
      InsertPerm(s[0], Sort(s[1..], key), key);
      assert s == [s[0]] + s[1..];
    }
  }

  lemma {:induction false} InsertSorted<T>(x: T, s: seq<T>, key: T -> int)
    requires SortedBy(s, key)
    ensures SortedBy(Insert(x, s, key), key)
  {
    if |s| > 0 && key(s[0]) < key(x) {
      var rest := Insert(x, s[1..], key);
      InsertSorted(x, s[1..], key);
      InsertPerm(x, s[1..], key);
      forall k | 0 <= k < |rest| ensures key(s[0]) <= key(rest[k]) {
        assert rest[k] in multiset(rest);
        if rest[k] != x {
          assert rest[k] in multiset(s[1..]);
          var j :| 0 <= j < |s[1..]| && s[1..][j] == rest[k];
          assert s[j + 1] == rest[k];
        }
      }
      assert Insert(x, s, key) == [s[0]] + rest;
    }
  }

  lemma {:induction false} InsertDistinct<T>(x: T, s: seq<T>, key: T -> int)
    requires Distinct(s) && x !in s
    ensures Distinct(Insert(x, s, key))
  {
    if |s| > 0 && key(s[0]) < key(x) {
      var rest := Insert(x, s[1..], key);
      InsertDistinct(x, s[1..], key);
      InsertPerm(x, s[1..], key);
      assert s[0] !in multiset(rest) by {
        assert s[0] != x;
        assert s[0] !in s[1..];
      }
      assert Insert(x, s, key) == [s[0]] + rest;
    }
  }

  /** The result of Sort is ordered by the key. */
  lemma {:induction false} SortSorted<T>(s: seq<T>, key: T -> int)
    ensures SortedBy(Sort(s, key), key)
  {
    if |s| > 0 {
      SortSorted(s[1..], key);
      InsertSorted(s[0], Sort(s[1..], key), key);
    }
  }

  /** Sorting a list without repetitions gives a list without repetitions. */
  lemma {:induction false} SortDistinct<T>(s: seq<T>, key: T -> int)
    requires Distinct(s)
    ensures Distinct(Sort(s, key))
  {
    if |s| > 0 {
      var t := Sort(s[1..], key);
      SortDistinct(s[1..], key);
      SortPerm(s[1..], key);
      assert s[0] !in multiset(t) by {
        assert s[0] !in s[1..];
      }
      InsertDistinct(s[0], t, key);
    }
  }

  /** A sorted list without repetitions is strictly increasing. */
  lemma SortedDistinctIsStrict(s: seq<int>)
    requires SortedBy(s, Id) && Distinct(s)
    ensures StrictlySortedBy(s, Id)
  {
  }

  /** Two ascending integer lists holding the same elements are equal: the
      sorted order of a list of integers is unique. */
  lemma {:induction false} SortedPermEqual(a: seq<int>, b: seq<int>)
    requires SortedBy(a, Id) && SortedBy(b, Id)
    requires multiset(a) == multiset(b)
    ensures a == b
  {
    if |a| == 0 || |b| == 0 {
      assert |a| == |multiset(a)| == |multiset(b)| == |b|;
    } else {
      SortedHeadLeast(a, b[0]);
      SortedHeadLeast(b, a[0]);
      var a', b' := a[1..], b[1..];
      HeadTail(a);
      HeadTail(b);
      assert a[0] == b[0];
      assert multiset(a') == multiset(a) - multiset{a[0]};
      assert multiset(b') == multiset(b) - multiset{b[0]};
      SortedPermEqual(a', b');
    }
  }

  /** The head of an ascending list is at most any of its elements. */
  lemma SortedHeadLeast(a: seq<int>, x: int)
    requires SortedBy(a, Id) && |a| > 0 && x in multiset(a)
    ensures a[0] <= x
  {
    var i :| 0 <= i < |a| && a[i] == x;
    assert Id(a[0]) <= Id(a[i]);
  }

  lemma HeadTail(a: seq<int>)
    requires |a| > 0
    ensures a == [a[0]] + a[1..]
    ensures multiset(a) == multiset{a[0]} + multiset(a[1..])
  {
    assert a == [a[0]] + a[1..];
  }

  /** Sorting the concatenation of two lists that share no element gives a
      strictly increasing list of every element of either. */
  lemma SortUnion(a: seq<int>, b: seq<int>)
    requires Distinct(a + b)
    ensures |Sort(a + b, Id)| == |a| + |b|
    ensures StrictlySortedBy(Sort(a + b, Id), Id)
    ensures forall v :: v in Sort(a + b, Id) <==> v in a || v in b
  {
    var all := a + b;
    var sorted := Sort(all, Id);
    SortSorted(all, Id);
    SortDistinct(all, Id);
    SortedDistinctIsStrict(sorted);
    SortPerm(all, Id);
    forall v ensures v in sorted <==> v in a || v in b {
      assert v in sorted <==> v in multiset(sorted);
      assert v in all <==> v in multiset(all);
    }
  }
}
